=== FILE: README.md ===
# JM Moda Evangélica storefront — interaction core in Dafny

The storefront is a React single-page app: an Instagram-style product grid with
reels, likes and comments, a registration flow that hands out a six-digit VIP
access code, a story ring, and an admin panel. Almost all of it is markup. This
project models the event handlers that carry rules, as pure functions over
immutable state, and proves what they promise:

- **Interactions** (`components/ProductGrid.tsx`): the like toggle with its
  floor at 0 and absolute write-back, comment submission gated on registration
  and non-blank text, indexing of comments by product id, the recent-comments
  feed truncated to ten, the case-insensitive catalog search and the `@handle`
  derived from a client name.
- **Controller** (`App.tsx`): lookup-or-create registration keyed by phone,
  the fallback catalog, the client counter based at 537, session restore from
  local storage, the 24-hour story window, the admin password prompt and the
  comment gate.
- **StoryPlayer** (`components/StoryViewer.tsx`): a state machine over
  `(index, progress)` driven by ticks and taps, and the progress-bar widths.
- **Registration** (`components/RegistrationModal.tsx`): the required-field
  check and the switch from form to success screen.
- **Types**, **Catalog** (`types.ts`, `constants.ts`): the entities and the
  bundled fixtures (four fallback products, five stories).
- **Strings**, **Seqs**: the JavaScript primitives the handlers use
  (`toLowerCase`, `\s`, `trim`, `includes`, `toString`, `filter`, `slice`).

Every network reply, `localStorage` value, `Date.now()`, `Math.random()` and
`prompt()` answer is a parameter: a reply is a datatype such as
`PostThrew | PostBody(body)`, the random draw is an integer in `[0, 900000)`,
storage is the `savedPhone` field of the application state, and the story timer
is a tick event.

A few behaviours of the code are easy to misread and are modelled as written:
the story viewer's "back" area is the left 20% of the content
(`components/StoryViewer.tsx:108`); a lookup during registration that returns
`data: null`, whether because the phone is unknown or because the query
failed, leads to an insert; a story lasts 101 ticks, because the tick that
finds the bar at 100% is the one that moves on; the recent feed is the first
ten rows in the order the backend sent them; and a failed product fetch keeps
whatever list is current, which is the fallback catalog only until a usable
reply has arrived.

## Model

| member | source | states |
|---|---|---|
| Interactions.FirstLikeOnEmptyGrid | components/ProductGrid.tsx:121-138 | on a fresh grid, the first tap likes the product and sends a counter of 1 |
| Interactions.ToggleLike | components/ProductGrid.tsx:121-138 | the tapped product's liked flag flips; its counter goes up by one when it was not liked and down by one but never below 0 when it was; the request carries the new absolute counter; no other product's flag or counter and nothing else in the grid changes |
| Interactions.ToggleKeepsCountsNonNegative | components/ProductGrid.tsx:123-124 | if every counter is non-negative before a like tap, every counter is non-negative after it |
| Interactions.ToggleTwice | components/ProductGrid.tsx:122-127 | two taps always restore the liked flag and the rest of the grid, and restore the counter exactly when it was at least 1 (liked) or at least 0 (not liked) |
| Interactions.ToggleTwiceFromLikedZero | components/ProductGrid.tsx:124 | a liked product with counter 0 ends at counter 1 after two taps, so a double tap is not an identity |
| Interactions.StoredLikes | components/ProductGrid.tsx:95 | an absent stored counter reads as 0, a present one as its value |
| Interactions.SeedCounts | components/ProductGrid.tsx:92-97 | no products seed no counters; otherwise the last product's id holds that product's stored counter, since it is written last |
| Interactions.SeedCountsKeys | components/ProductGrid.tsx:92-97 | the seeded counters have exactly one entry per product id in the list |
| Interactions.SeedCountsAt | components/ProductGrid.tsx:92-97 | the counter of the last product with a given id is that product's stored `likes_count`, later assignments overriding earlier ones |
| Interactions.SeedCountsSpec | components/ProductGrid.tsx:92-97 | the seeded counters have one entry per product id, holding the stored `likes_count` (0 when absent) of the last product with that id |
| Interactions.IndexComments | components/ProductGrid.tsx:104-114 | no rows give an empty index; otherwise the last row, formatted, ends the list of its product id, since it is pushed last |
| Interactions.IndexCommentsKeys | components/ProductGrid.tsx:103-114 | the index has a list for exactly the product ids that occur among the loaded rows |
| Interactions.IndexedBucketIsFilter | components/ProductGrid.tsx:103-114 | the list under each product id is exactly the rows for that product, formatted, in the order the backend sent them |
| Interactions.FormatIndexed | components/ProductGrid.tsx:105-111 | an indexed comment keeps the row's id, text, `created_at` date and product id and shows "Anônimo" when the first name is absent or empty |
| Interactions.ReindexComments | components/ProductGrid.tsx:99-118 | an array reply replaces the comment index, a null body empties it, and a thrown error (including a body that is not an array) keeps the old index |
| Interactions.LoadInteractions | components/ProductGrid.tsx:55-59 | with no products nothing changes; otherwise the counters are reseeded from the products whatever the comments reply, the index is updated from the reply, and nothing else changes |
| Interactions.FormatRecent | components/ProductGrid.tsx:73-81 | a feed entry keeps the row's id, text, `created_at` date, product id, product name and image and shows "Membro VIP" when the first name is absent or empty |
| Interactions.LoadRecent | components/ProductGrid.tsx:67-89 | an array reply makes the feed the first min(10, n) rows in the order sent, each formatted; any other reply leaves the grid unchanged |
| Interactions.SubmitComment | components/ProductGrid.tsx:140-173 | nothing is sent and nothing changes exactly when the gate is closed or the draft is blank; otherwise the untrimmed draft is posted; only a reply with an id appends one comment at the end of that product's list and clears the draft; other replies change nothing, and only a thrown error alerts; no other product's list changes (the appended comment is the corrected one of `FormatPosted`, see Findings) |
| Interactions.SubmitCommentAsWritten | components/ProductGrid.tsx:140-163 | as written, a comment is appended exactly when the gate is open, the draft is not blank and the reply has an id, and it carries the reply's `first_name` as is, absent when the reply has none |
| Interactions.SubmitCorrectsOnlyTheName | components/ProductGrid.tsx:156-167 | the corrected submission appends exactly when the code as written does, with the same id, text, date and product; the name differs only for a missing or empty `first_name`, which becomes "Anônimo" |
| Interactions.SubmitOnlyAppends | components/ProductGrid.tsx:164-167 | after a submission every product's old list is a prefix of its new list, which is at most one longer |
| Interactions.FormatPosted | components/ProductGrid.tsx:156-163 | the corrected comment for a confirmed reply keeps the reply's id, text, `created_at` date and product id; its name is `first_name`, or "Anônimo" when that is missing or empty (the code at line 160 has no fallback; see Findings) |
| Interactions.LoadKeepsNamed | components/ProductGrid.tsx:103-114 | loading comments preserves the invariant that every stored comment has a non-empty client name |
| Interactions.SubmitKeepsNamed | components/ProductGrid.tsx:156-167 | submitting a comment preserves the invariant that every stored comment has a non-empty client name |
| Interactions.Handle | components/ProductGrid.tsx:301 | the handle has the name's length, contains no whitespace or upper-case letter, has `_` where the name had whitespace and the lowered character elsewhere |
| Interactions.HandleIdempotent | components/ProductGrid.tsx:359 | deriving a handle from a handle gives the same handle |
| Interactions.FilterProducts | components/ProductGrid.tsx:175-179 | an empty query returns the whole catalog; otherwise the result is an order-preserving subsequence of the catalog, every member of which matches, and every matching product is in it |
| Interactions.FilterProductsCounts | components/ProductGrid.tsx:175-179 | each matching product appears in the result as many times as in the catalog, and a non-matching one not at all |
| Interactions.EmptyQueryMatchesAll | components/ProductGrid.tsx:176 | every product matches the empty query, so the early return agrees with filtering |
| Interactions.SearchIgnoresQueryCase | components/ProductGrid.tsx:177-178 | searching for the lowered query gives the same result as searching for the query |
| Interactions.TextMissesVestido | components/ProductGrid.tsx:177-178 | a text with no "v" or "V" in it does not include the lowered query "VESTIDO" once lowered |
| Interactions.ProductMissesVestido | components/ProductGrid.tsx:177-178 | a product with no "v" or "V" in its name or category does not match the query "VESTIDO" |
| Interactions.SearchFindsOnlyMatch | components/ProductGrid.tsx:175-179 | for a non-empty query that only the first of four products matches, the search returns exactly that product |
| Controller.DressMatchesVestido | components/ProductGrid.tsx:177-178 | the "Vestido Midi Floral Grace" of the fallback catalog (constants.ts:4-12) matches the upper-case query "VESTIDO" |
| Controller.BlazerMissesVestido | components/ProductGrid.tsx:177-178 | the fallback blazer (constants.ts:13-21) does not match "VESTIDO" |
| Controller.SkirtMissesVestido | components/ProductGrid.tsx:177-178 | the fallback skirt (constants.ts:22-30) does not match "VESTIDO" |
| Controller.BlouseMissesVestido | components/ProductGrid.tsx:177-178 | the fallback blouse (constants.ts:31-39) does not match "VESTIDO" |
| Controller.SearchFallbackForVestido | components/ProductGrid.tsx:175-179 | searching the fallback catalog (constants.ts:3-40) for "VESTIDO" returns exactly the floral dress: the upper-case query is lowered and matched against the lowered name |
| Interactions.FormatPostedAsWritten | components/ProductGrid.tsx:157-163 | the comment built from a reply carries the reply's first name unchanged, absent when the reply has none |
| Interactions.HandleAsWritten | components/ProductGrid.tsx:301 | rendering a handle fails exactly when the client name is absent |
| Interactions.PostedWithoutNameBreaksHandle | components/ProductGrid.tsx:156-163 | a confirming reply without `first_name` gives a comment whose handle cannot be rendered as written, and the name "Anônimo" with the fallback |
| Interactions.NameOr | components/ProductGrid.tsx:108 | a present, non-empty name is kept; an absent or empty one is replaced by the fallback |
| Strings.BlankIffAllSpace | components/ProductGrid.tsx:142 | `trim()` leaves nothing exactly when every character is whitespace |
| Strings.IncludesIff | components/ProductGrid.tsx:178 | the `includes` scan succeeds exactly when the query occurs at some position of the text |
| Strings.Lower | components/ProductGrid.tsx:177 | lowering keeps the length and lowers each character |
| Strings.ToLower | components/ProductGrid.tsx:301 | an upper-case letter (A to Z, À to Þ except ×) becomes the character 32 code points above it, its lower-case form; the result is never upper-case, is whitespace exactly when the input was, and equals the input when that was not upper-case |
| Strings.LowerIdempotent | components/ProductGrid.tsx:178 | lowering twice equals lowering once |
| Strings.ParseNatToString | App.tsx:111 | the decimal text of a number reads back as that number |
| Strings.NatToString | App.tsx:111 | the printed number is at least one character long, all decimal digits, with no leading zero unless the number is 0 |
| Strings.TrimStart | components/ProductGrid.tsx:142 | the result is a suffix of the input, everything dropped is whitespace, and it does not start with whitespace |
| Strings.TrimEnd | components/ProductGrid.tsx:142 | the result is a prefix of the input, everything dropped is whitespace, and it does not end with whitespace |
| Strings.MissingFirstNotIncluded | components/ProductGrid.tsx:178 | a query whose first character does not occur in the text is not included in it |
| Strings.LowerAvoids | components/ProductGrid.tsx:177-178 | a lower-case ASCII letter occurs in the lowered text only if the text has it in lower or upper case |
| Strings.NatToStringLength | App.tsx:111 | a number between 10^(k-1) and 10^k - 1 is printed with exactly k characters |
| Seqs.Filter | App.tsx:141 | the result is an order-preserving subsequence whose elements all pass the test and which contains every passing element |
| Seqs.FilterCounts | App.tsx:141 | every passing element is kept as many times as it occurs, and a failing one not at all |
| Seqs.FilterAppend | App.tsx:141 | filtering a concatenation is the concatenation of the filtered parts |
| Seqs.FilterNoneKept | components/ProductGrid.tsx:178 | filtering a sequence none of whose elements is kept gives the empty sequence |
| Seqs.FilterPrefix | App.tsx:141 | filtering a prefix gives a prefix of the filtered sequence |
| Seqs.Take | App.tsx:141 | `slice(0, n)` keeps min(n, length) elements, and they are the leading ones |
| Seqs.PrefixOfSubseq | App.tsx:141 | cutting a subsequence short still gives a subsequence |
| Controller.Initial | App.tsx:25-37 | on mount the grid shows the fallback catalog, nobody is registered and the counter is 537 |
| Controller.FetchProducts | App.tsx:77-93 | the list is replaced only by a reply with no error and a non-empty list; a non-empty list stays non-empty; loading ends; nothing else changes |
| Controller.CatalogNeverEmpty | App.tsx:85-87 | over any run of fetches the list is never empty, and stays the starting list while no reply is usable |
| Controller.FailedFetchShowsFallback | App.tsx:28 | after a failed first fetch the grid shows four products, the first "Vestido Midi Floral Grace" at 189.90 |
| Controller.FetchClientCount | App.tsx:46-58 | a successful count shows 537 plus the backend's count; any other reply changes nothing |
| Controller.CounterTracksRegistrations | App.tsx:52-53 | after the count arrives, each new client registered in the session adds exactly 1: the counter is 537 plus the backend count plus the number of registrations |
| Controller.SignIn | App.tsx:104-107 | signing in sets the client id, the name and the registered flag and stores the phone, touching nothing else |
| Controller.CodeFor | App.tsx:111 | the generated code is exactly six decimal digits denoting a number in [100000, 999999] |
| Controller.Register | App.tsx:95-137 | an existing phone returns its stored code with no insert and the same counter; a new phone inserts a six-digit code and on success returns that code and adds exactly 1 to the counter; a failed insert returns null and leaves the state unchanged; any success marks the session registered and stores the submitted phone |
| Controller.SamePhoneSameCode | App.tsx:97-108 | registering the same phone again after a successful insert returns the same code, inserts nothing and leaves the counter unchanged |
| Controller.CheckLocalAuth | App.tsx:60-75 | a lookup is made exactly when a non-empty phone is stored, and only a found client restores the session |
| Controller.NoPhoneNoSession | App.tsx:61-62 | with no stored phone, or an empty one, the session is never restored |
| Controller.SessionSurvivesReload | App.tsx:60-75 | after a successful registration the phone is in storage, and on the next mount the lookup of that phone restores the same client id and name |
| Controller.ActiveStories | App.tsx:139-142 | the active stories are an order-preserving subsequence of the stories, each strictly newer than 24 hours, numbering min(10, number of such stories), and include every such story when fewer than ten are kept |
| Controller.FreshCountIsFilterLength | App.tsx:140-141 | the filter keeps exactly as many stories as are newer than 24 hours |
| Controller.FirstFreshStoriesKept | App.tsx:141 | the ten kept are the first ten: for any prefix of the stories holding at most ten fresh stories, those fresh stories, in order, are the start of the active list |
| Controller.FirstFreshStoriesShown | App.tsx:141 | every fresh story in a prefix holding at most ten fresh stories is active |
| Controller.BoundaryStoryExcluded | App.tsx:140-141 | a story exactly 24 hours old is not active |
| Controller.BundledStoriesActive | App.tsx:139-142 | within 19 hours of loading, the five bundled stories are all active, in order |
| Controller.OpenStories | App.tsx:176 | the profile tap opens the viewer only when there is at least one active story |
| Controller.AdminLogin | App.tsx:150-157 | exactly "admin" switches to the admin view without an alert; cancelling changes nothing and alerts nothing; any other answer alerts and changes nothing |
| Controller.AdminOnlyWithPassword | App.tsx:152-153 | from the landing view the admin view is reached exactly when the answer is "admin" |
| Controller.CommentAttempt | App.tsx:189 | the gate answers whether the user is registered and opens the modal exactly when not |
| Controller.CommentAfterRegistration | App.tsx:189 | an unregistered attempt opens the modal and sends no comment; after a successful registration the gate lets the next attempt through without the modal |
| Controller.NewClientSeesCode | App.tsx:126-132 | a complete form for a new phone whose insert succeeds leads to the success screen showing the returned six-digit code, with the phone stored |
| StoryPlayer.Next | components/StoryViewer.tsx:16-23 | the viewer closes exactly when it was on the last story (or closed); otherwise it shows the next story from progress 0; validity is preserved |
| StoryPlayer.Prev | components/StoryViewer.tsx:25-30 | above index 0 the viewer shows the previous story from progress 0; at index 0 nothing changes; validity is preserved |
| StoryPlayer.Tick | components/StoryViewer.tsx:32-44 | below 100 the progress grows by exactly 1; at 100 or more the tick acts as `nextStory`; validity is preserved |
| StoryPlayer.TapZone | components/StoryViewer.tsx:107-110 | a tap at a position below 20% of the width lands in the back area, any other in the forward area |
| StoryPlayer.TapMovesStory | components/StoryViewer.tsx:107-110 | a tap below 20% of the width runs `prevStory` and any other tap `nextStory` |
| StoryPlayer.BackThenForward | components/StoryViewer.tsx:16-30 | a back tap followed by a forward tap restarts the current story, except on the first story, where only the forward tap acts |
| StoryPlayer.OpenedViewerStaysValid | components/StoryViewer.tsx:11-40 | a viewer opened on one of its stories stays on one of them, with progress in [0, 100], after any events |
| StoryPlayer.RunStaysValid | components/StoryViewer.tsx:16-40 | after any sequence of ticks, taps and closes, an open viewer shows one of its stories with progress in [0, 100] |
| StoryPlayer.ValidShowsStory | components/StoryViewer.tsx:46-47 | an open viewer whose index is within the stories always has a story to show |
| StoryPlayer.Shown | components/StoryViewer.tsx:46-47 | a story is shown exactly when the viewer is open and its index is in range, and it is the story at that index |
| StoryPlayer.BarWidth | components/StoryViewer.tsx:59 | a bar before the current story is 100%, the current one shows the progress, a later one is 0%, so every width lies in [0, 100] while the progress does |
| StoryPlayer.BarsNonIncreasing | components/StoryViewer.tsx:54-61 | bar widths never increase from left to right |
| StoryPlayer.FilledBarsTotal | components/StoryViewer.tsx:54-61 | the bars together show 100 per finished story plus the current progress |
| StoryPlayer.StoryLasts101Ticks | components/StoryViewer.tsx:34-40 | from the start of a story, 100 ticks bring progress to 100 and the 101st moves on |
| StoryPlayer.EndsAreClamped | components/StoryViewer.tsx:17-29 | on the first story a left tap is a no-op; on the last a right tap or a completed bar closes the viewer |
| Registration.ScreenOf | components/RegistrationModal.tsx:52-64 | the success screen is shown exactly when a non-empty code is held, and it shows that code |
| Registration.Submit | components/RegistrationModal.tsx:28-45 | the form is sent exactly when first name, last name and WhatsApp are non-empty, carrying the form fields and the date; otherwise an alert and no change; a non-empty returned code switches to the success screen with that code; a null or empty one keeps the old code |
| Registration.BlankFormAlerts | components/RegistrationModal.tsx:19-33 | calling `handleSubmit` on the untouched form alerts, sends nothing and stays on the form screen |
| Registration.NicknameNeverRequired | components/RegistrationModal.tsx:30 | changing the nickname never changes whether the form is sent |
| Registration.NullReplyKeepsForm | components/RegistrationModal.tsx:42 | a null reply leaves the form screen with no code |
| Registration.SpacesPassTheCheck | components/RegistrationModal.tsx:30 | fields made of spaces pass, since the check is emptiness and not trimmed emptiness |
| Catalog.FallbackShape | constants.ts:3-40 | the fallback catalog holds four products with ids 1 to 4 and no stored counter, the first "Vestido Midi Floral Grace" at 189.90 |
| Catalog.Stories | constants.ts:42-77 | the five bundled stories are stamped one to five hours before load time |

## Left out

- Network transport: `fetch`, the supabase client and the endpoint that
  ProductGrid expects versus the client App passes are not modelled; every
  reply is a parameter.
- Asynchronous ordering: each handler is one atomic step; replies that resolve
  out of order, and races between the count fetch and a registration, are not
  modelled.
- Timers: `setInterval` is the tick event; teardown of the interval is not modelled.
- `localStorage` is the `savedPhone` field; its failure modes are not modelled.
- Strings.ToLower: only ASCII and Latin-1 upper-case letters are lowered;
  the rest of Unicode `toLowerCase` (including mappings that change the length) is not modelled.
- Interactions.StoredLikes: a non-numeric stored counter (`parseInt` giving NaN) is not modelled; an absent counter reads as 0.
- Prices are integer cents; `toFixed`, `toLocaleDateString`, `encodeURIComponent` and the Hero's "x.y mil" formatting are not modelled.
- StoryPlayer.TapZone: the 20% boundary is taken on exact pixel positions; sub-pixel layout rounding is not modelled.
- The story header's "hours ago" label and the story viewer's message box are not modelled (display only).
- The admin panel (components/AdminPanel.tsx) is CRUD over a client not visible here and is not part of this model, including its engagement sum; closing it, which refetches the products, is covered only through `Controller.FetchProducts`.
- Static views (Features, Story, Testimonials, CTA, Footer, Header, BottomNav, Hero) hold no rules and are not modelled; tab switching and the mute toggle are not modelled.
- Registration.Submit: models `handleSubmit` only. The first name, last name and WhatsApp inputs carry `required` (components/RegistrationModal.tsx:105, 117, 143), so the browser refuses an empty submission before the handler runs; `alerted` describes the handler's own check, which a form submission reaches only if the browser's check is bypassed. Both checks test emptiness only, so the sent/not-sent rule is the same.
- The recent feed's `loadingRecent` flag is not modelled; `loadingProducts` and the modal's `loading` are.
- Interactions.SubmitComment and Interactions.FormatPosted: both model the corrected fallback to "Anônimo" for a reply without a non-empty `first_name`; the code at components/ProductGrid.tsx:160 copies `first_name` as is, which `Interactions.SubmitCommentAsWritten` models (see Findings).

## Findings

| source | as written | input that shows it | evidently intended | confidence | as-written member | corrected member |
|---|---|---|---|---|---|---|
| components/ProductGrid.tsx:160 | a confirmed comment stores `client_name: data.first_name` with no fallback, and the reels render it with `c.client_name.toLowerCase()` (line 301) | a `post_comment` reply `{id: "9", text: "Amei!", product_id: 1}` without `first_name` | fall back to "Anônimo" as the loader does at line 108, so every stored comment can be rendered | low, not executed | Interactions.PostedWithoutNameBreaksHandle | Interactions.SubmitKeepsNamed |

=== FILE: catalog.dfy ===
/** The bundled content (constants.ts): the fallback catalog shown when the
    backend has nothing to offer, and the stories of the profile ring. */
module Catalog {
  import opened Types

  const HourMs: int := 3600000

  const Dress: Product := Product(1, "Vestido Midi Floral Grace", 18990,
    "Tecido chiffon leve com estampa floral modesta, perfeito para o culto de domingo.",
    "https://picsum.photos/400/600?random=1", None, "Vestidos", ["P", "M", "G", "GG"], None)

  const Blazer: Product := Product(2, "Blazer Clássico Elegante", 22990,
    "Blazer de alfaiataria em crepe premium. Adiciona sofisticação a qualquer look.",
    "https://picsum.photos/400/600?random=2", None, "Casacos", ["M", "G", "GG"], None)

  const Skirt: Product := Product(3, "Saia Plissada Serenity", 13990,
    "Uma saia plissada atemporal com caimento perfeito. Comprimento modesto e cós confortável.",
    "https://picsum.photos/400/600?random=3", None, "Saias", ["P", "M", "G"], None)

  const Blouse: Product := Product(4, "Blusa de Seda Modesta", 11990,
    "Blusa de seda com gola alta e brilho suave. Perfeita para sobreposições.",
    "https://picsum.photos/400/600?random=4", None, "Blusas", ["P", "M", "G", "GG", "XG"], None)

  /** The four products the grid shows before, or instead of, the backend's list. */
  const Fallback: seq<Product> := [Dress, Blazer, Skirt, Blouse]

  const MorningGreeting: string := "Bom dia princesas do Senhor! ✨ Que tal um café e um look novo para começar o dia?"
  const RestockNotice: string := "Atenção! Reposição do Vestido Midi Floral em 1 hora. Ativem as notificações! 🔔"

  /** The bundled stories, stamped one to five hours before `loadTime`, the
      moment the module is loaded (its `Date.now()`). */
  function Stories(loadTime: int): (r: seq<StoryPost>)
    ensures |r| == 5
    ensures r[0].timestamp == loadTime - HourMs && r[1].timestamp == loadTime - 2 * HourMs
    ensures r[2].timestamp == loadTime - 3 * HourMs && r[3].timestamp == loadTime - 4 * HourMs
    ensures r[4].timestamp == loadTime - 5 * HourMs
  {
    var s1 := StoryPost("s1", Image, "https://picsum.photos/1080/1920?random=1001", loadTime - HourMs, None, None);
    var s2 := StoryPost("s2", Text, MorningGreeting, loadTime - 2 * HourMs, Some("#E91E63"), Some("#FFFFFF"));
    var s3 := StoryPost("s3", Image, "https://picsum.photos/1080/1920?random=1002", loadTime - 3 * HourMs, None, None);
    var s4 := StoryPost("s4", Text, RestockNotice, loadTime - 4 * HourMs, Some("#000000"), Some("#FFFFFF"));
    var s5 := StoryPost("s5", Image, "https://picsum.photos/1080/1920?random=1003", loadTime - 5 * HourMs, None, None);
    [s1, s2, s3, s4, s5]
  }

  /** The fallback catalog: four products with distinct ids 1 to 4, none of them with a stored like counter. */
  lemma FallbackShape()
    ensures |Fallback| == 4
    ensures forall i :: 0 <= i < |Fallback| ==> Fallback[i].id == i + 1 && Fallback[i].likesCount.None?
    ensures Fallback[0].name == "Vestido Midi Floral Grace" && Fallback[0].priceCents == 18990
  {
  }
}

=== FILE: controller.dfy ===
/** The application controller (App.tsx): the session state it owns, the
    registration keyed by phone, the catalog fallback, the client counter,
    the story window, the admin prompt and the comment gate. Backend replies,
    `localStorage`, `Date.now`, `Math.random` and `prompt` are inputs. */
module Controller {
  import opened Types
  import opened Strings
  import Seqs
  import Catalog
  import Interactions
  import Registration

  const BaseClientCount: int := 537
  const DayMs: int := 24 * 60 * 60 * 1000
  const MaxStories: nat := 10
  const AdminPassword: string := "admin"

  /** The state App keeps; `savedPhone` is the `jm_whatsapp` entry of local storage. */
  datatype App = App(
    view: ViewState,
    modalOpen: bool,
    products: seq<Product>,
    loadingProducts: bool,
    clientId: Option<string>,
    userName: string,
    registered: bool,
    clientsCount: int,
    savedPhone: Option<string>,
    viewingStory: bool)

  /** The state on mount, before any request has answered. */
  function Initial(savedPhone: Option<string>): (a: App)
    ensures a.products == Catalog.Fallback && !a.registered && a.clientsCount == BaseClientCount
  {
    App(Landing, false, Catalog.Fallback, true, None, "", false, BaseClientCount, savedPhone, false)
  }

  // ------------------------------------------------------------- catalog

  /** What the products request produced: a thrown error, or a data list
      (null when absent) together with the error flag. */
  datatype ProductsReply = ProductsThrew | ProductsAnswer(data: Option<seq<Product>>, failed: bool)

  /** The reply carries a usable list: no error and at least one product. */
  predicate Usable(reply: ProductsReply)
  {
    reply.ProductsAnswer? && !reply.failed && reply.data.Some? && |reply.data.value| > 0
  }

  /** `fetchProducts`: the list is replaced only by a usable reply; loading ends either way. */
  function FetchProducts(a: App, reply: ProductsReply): (r: App)
    ensures Usable(reply) ==> r.products == reply.data.value
    ensures !Usable(reply) ==> r.products == a.products
    ensures |a.products| > 0 ==> |r.products| > 0
    ensures !r.loadingProducts
    ensures r.(products := a.products, loadingProducts := a.loadingProducts) == a
  {
    if Usable(reply) then a.(products := reply.data.value, loadingProducts := false)
    else a.(loadingProducts := false)
  }

  function FetchAll(a: App, replies: seq<ProductsReply>): App
    decreases |replies|
  {
    if |replies| == 0 then a else FetchAll(FetchProducts(a, replies[0]), replies[1..])
  }

  /** Over any run of product fetches the grid is never empty, and it shows
      the bundled catalog for as long as no reply was usable. */
  lemma {:induction false} CatalogNeverEmpty(a: App, replies: seq<ProductsReply>)
    requires |a.products| > 0
    ensures |FetchAll(a, replies).products| > 0
    ensures (forall i :: 0 <= i < |replies| ==> !Usable(replies[i])) ==> FetchAll(a, replies).products == a.products
    decreases |replies|
  {
    if |replies| > 0 {
      CatalogNeverEmpty(FetchProducts(a, replies[0]), replies[1..]);
    }
  }

  /** A failed first fetch shows the four bundled products at their fixed prices. */
  lemma FailedFetchShowsFallback(savedPhone: Option<string>)
    ensures var a := FetchProducts(Initial(savedPhone), ProductsThrew);
      |a.products| == 4 && a.products[0].name == "Vestido Midi Floral Grace" && a.products[0].priceCents == 18990
  {
    Catalog.FallbackShape();
  }

  // ------------------------------------------------------- client counter

  /** What the count request produced: a thrown error, or a count (null when absent) and the error flag. */
  datatype CountReply = CountThrew | CountAnswer(count: Option<nat>, failed: bool)

  /** `fetchInitialClientCount`: a successful count shows 537 more than the backend's count. */
  function FetchClientCount(a: App, reply: CountReply): (r: App)
    ensures reply.CountAnswer? && !reply.failed && reply.count.Some? ==> r.clientsCount == BaseClientCount + reply.count.value
    ensures !(reply.CountAnswer? && !reply.failed && reply.count.Some?) ==> r == a
    ensures r.(clientsCount := a.clientsCount) == a
  {
    match reply
    case CountAnswer(Some(n), false) => a.(clientsCount := BaseClientCount + n)
    case _ => a
  }

  /** The counter shown after the count arrives and `|forms|` new clients
      register in this session: 537 plus the backend's count plus one per client. */
  lemma {:induction false} CounterTracksRegistrations(a: App, n: nat, forms: seq<Registration.ClientData>,
                                                      draws: seq<int>, rows: seq<ClientRow>)
    requires Batch(forms, draws, rows)
    ensures var counted := FetchClientCount(a, CountAnswer(Some(n), false));
      RegisterAll(counted, forms, draws, rows).clientsCount == BaseClientCount + n + |forms|
    decreases |forms|
  {
    if |forms| > 0 {
      var counted := FetchClientCount(a, CountAnswer(Some(n), false));
      var last := |forms| - 1;
      var fs, ds, rs := forms[..last], draws[..last], rows[..last];
      assert Batch(fs, ds, rs);
      CounterTracksRegistrations(a, n, fs, ds, rs);
      var before := RegisterAll(counted, fs, ds, rs);
      RegisterAllSnoc(counted, fs, ds, rs, forms[last], draws[last], rows[last]);
      assert fs + [forms[last]] == forms && ds + [draws[last]] == draws && rs + [rows[last]] == rows;
      var step := Register(before, forms[last], None, draws[last], InsertedRow(rows[last]));
      assert step.app.clientsCount == before.clientsCount + 1;
    }
  }

  /** Matching registrations: one form, random draw and inserted row each. */
  ghost predicate Batch(forms: seq<Registration.ClientData>, draws: seq<int>, rows: seq<ClientRow>)
  {
    |forms| == |draws| == |rows| && forall i :: 0 <= i < |draws| ==> 0 <= draws[i] < 900000
  }

  /** New phones registered one after another, each insert succeeding. */
  ghost function RegisterAll(a: App, forms: seq<Registration.ClientData>, draws: seq<int>, rows: seq<ClientRow>): App
    requires Batch(forms, draws, rows)
    decreases |forms|
  {
    if |forms| == 0 then a
    else RegisterAll(Register(a, forms[0], None, draws[0], InsertedRow(rows[0])).app, forms[1..], draws[1..], rows[1..])
  }

  lemma {:induction false} RegisterAllSnoc(a: App, forms: seq<Registration.ClientData>, draws: seq<int>, rows: seq<ClientRow>,
                                           form: Registration.ClientData, draw: int, row: ClientRow)
    requires Batch(forms, draws, rows) && 0 <= draw < 900000
    ensures Batch(forms + [form], draws + [draw], rows + [row])
    ensures RegisterAll(a, forms + [form], draws + [draw], rows + [row])
         == Register(RegisterAll(a, forms, draws, rows), form, None, draw, InsertedRow(row)).app
    decreases |forms|
  {
    if |forms| == 0 {
      assert forms + [form] == [form];
      assert draws + [draw] == [draw];
      assert rows + [row] == [row];
    } else {
      assert (forms + [form])[1..] == forms[1..] + [form];
      assert (draws + [draw])[1..] == draws[1..] + [draw];
      assert (rows + [row])[1..] == rows[1..] + [row];
      RegisterAllSnoc(Register(a, forms[0], None, draws[0], InsertedRow(rows[0])).app,
                      forms[1..], draws[1..], rows[1..], form, draw, row);
    }
  }

  // -------------------------------------------------------- registration

  /** A client row as the backend returns it; `password` is the access code. */
  datatype ClientRow = ClientRow(id: string, firstName: string, password: string)

  /** The row inserted for a new client. */
  datatype NewClient = NewClient(firstName: string, lastName: string, nickname: string, whatsapp: string, password: string)

  /** What the insert produced: the stored row, or an error (returned or thrown). */
  datatype InsertReply = InsertedRow(row: ClientRow) | InsertFailed

  /** The state after a registration, the insert it sent (if any) and the code it returned (`null` as `None`). */
  datatype Registered = Registered(app: App, insert: Option<NewClient>, code: Option<string>)

  /** Marks the session as signed in as `row`, remembering `phone` in storage. */
  function SignIn(a: App, row: ClientRow, phone: string): (r: App)
    ensures r.registered && r.savedPhone == Some(phone) && r.clientId == Some(row.id) && r.userName == row.firstName
    ensures r.(clientId := a.clientId, userName := a.userName, registered := a.registered, savedPhone := a.savedPhone) == a
  {
    a.(clientId := Some(row.id), userName := row.firstName, registered := true, savedPhone := Some(phone))
  }

  /** The access code a random draw yields: `Math.floor(100000 + Math.random() * 900000).toString()`,
      where `draw` is the floor of `Math.random() * 900000`. */
  function CodeFor(draw: int): (code: string)
    requires 0 <= draw < 900000
    ensures |code| == 6
    ensures forall i :: 0 <= i < |code| ==> IsDigit(code[i])
    ensures ParseDigits(code) == 100000 + draw
  {
    assert Pow10(5) == 100000 by {
      assert Pow10(1) == 10 && Pow10(2) == 100 && Pow10(3) == 1000 && Pow10(4) == 10000;
    }
    assert Pow10(6) == 1000000;
    NatToStringLength(100000 + draw, 6);
    ParseNatToString(100000 + draw);
    NatToString(100000 + draw)
  }

  /** `handleRegisterClient`. `existing` is the lookup by phone (a lookup
      error reads as `None`, like "not found"); `draw` stands for the random
      number; `reply` answers the insert, which is only sent for a new phone. */
  function Register(a: App, form: Registration.ClientData, existing: Option<ClientRow>, draw: int, reply: InsertReply): (r: Registered)
    requires 0 <= draw < 900000
    ensures existing.Some? ==> r.code == Some(existing.value.password) && r.insert.None? && r.app.clientsCount == a.clientsCount
    ensures existing.None? ==> r.insert.Some? && r.insert.value.whatsapp == form.whatsapp
    ensures existing.None? ==> var code := r.insert.value.password;
      && |code| == 6 && (forall i :: 0 <= i < |code| ==> IsDigit(code[i]))
      && 100000 <= ParseDigits(code) <= 999999
    ensures existing.None? && reply.InsertedRow? ==> r.code == Some(r.insert.value.password) && r.app.clientsCount == a.clientsCount + 1
    ensures existing.None? && reply.InsertFailed? ==> r.code.None?
    ensures r.code.None? ==> r.app == a
    ensures r.code.Some? ==> r.app.registered && r.app.savedPhone == Some(form.whatsapp) && r.app.clientId.Some?
    ensures r.app.(clientId := a.clientId, userName := a.userName, registered := a.registered,
                   savedPhone := a.savedPhone, clientsCount := a.clientsCount) == a
  {
    match existing
    case Some(row) => Registered(SignIn(a, row, form.whatsapp), None, Some(row.password))
    case None =>
      var code := CodeFor(draw);
      var insert := NewClient(form.firstName, form.lastName, form.nickname, form.whatsapp, code);
      match reply
      case InsertFailed => Registered(a, Some(insert), None)
      case InsertedRow(row) =>
        var signedIn := SignIn(a, row, form.whatsapp);
        Registered(signedIn.(clientsCount := a.clientsCount + 1), Some(insert), Some(code))
  }

  /** The backend's client table, keyed by phone. */
  function Lookup(table: map<string, ClientRow>, phone: string): Option<ClientRow>
  {
    if phone in table then Some(table[phone]) else None
  }

  /** Registering the same phone twice returns the same code: the second time
      the stored row is found, nothing is inserted and the counter stays. */
  lemma SamePhoneSameCode(a: App, table: map<string, ClientRow>, first: Registration.ClientData,
                          second: Registration.ClientData, id: string, draw1: int, draw2: int, reply2: InsertReply)
    requires 0 <= draw1 < 900000 && 0 <= draw2 < 900000
    requires first.whatsapp == second.whatsapp && first.whatsapp !in table
    ensures var r1 := Register(a, first, None, draw1, InsertedRow(ClientRow(id, first.firstName, CodeFor(draw1))));
      var stored := table[first.whatsapp := ClientRow(id, first.firstName, r1.insert.value.password)];
      var r2 := Register(r1.app, second, Lookup(stored, second.whatsapp), draw2, reply2);
      && r1.code.Some? && r2.code == r1.code
      && r2.insert.None? && r2.app.clientsCount == r1.app.clientsCount == a.clientsCount + 1
  {
  }

  /** `checkLocalAuth`: with a phone in storage the client is looked up and,
      when found, the session is restored; `query` is the phone looked up. */
  datatype AuthCheck = AuthCheck(app: App, query: Option<string>)

  function CheckLocalAuth(a: App, found: Option<ClientRow>): (r: AuthCheck)
    ensures r.query.Some? <==> a.savedPhone.Some? && a.savedPhone.value != ""
    ensures r.query.Some? ==> r.query == a.savedPhone
    ensures r.query.Some? && found.Some? ==>
      r.app.registered && r.app.clientId == Some(found.value.id) && r.app.userName == found.value.firstName
    ensures r.query.None? || found.None? ==> r.app == a
    ensures r.app.(clientId := a.clientId, userName := a.userName, registered := a.registered) == a
  {
    if a.savedPhone.Some? && a.savedPhone.value != "" then
      match found
      case Some(row) =>
        AuthCheck(a.(clientId := Some(row.id), userName := row.firstName, registered := true), a.savedPhone)
      case None => AuthCheck(a, a.savedPhone)
    else AuthCheck(a, None)
  }

  /** A session survives a reload: after a successful registration the phone
      is in storage, and on the next mount `checkLocalAuth` looks it up and,
      finding the row the backend now holds for it, restores the same client. */
  lemma SessionSurvivesReload(a: App, form: Registration.ClientData, existing: Option<ClientRow>,
                              draw: int, reply: InsertReply, table: map<string, ClientRow>)
    requires 0 <= draw < 900000 && form.whatsapp != ""
    requires Register(a, form, existing, draw, reply).code.Some?
    ensures var r := Register(a, form, existing, draw, reply);
      var row := if existing.Some? then existing.value else reply.row;
      var back := CheckLocalAuth(Initial(r.app.savedPhone), Lookup(table[form.whatsapp := row], form.whatsapp));
      && back.query == Some(form.whatsapp)
      && back.app.registered && back.app.clientId == r.app.clientId && back.app.userName == r.app.userName
  {
  }

  /** Without a stored phone a session is never restored. */
  lemma NoPhoneNoSession(found: Option<ClientRow>)
    ensures !CheckLocalAuth(Initial(None), found).app.registered
    ensures !CheckLocalAuth(Initial(Some("")), found).app.registered
  {
  }

  // ------------------------------------------------------------- search

  /** The floral dress matches "VESTIDO": its lowered name starts with "vestido". */
  lemma DressMatchesVestido()
    ensures Interactions.MatchesQuery(Catalog.Dress, "VESTIDO")
  {
    assert Lower("VESTIDO") == "vestido";
    assert Lower(Catalog.Dress.name)[..7] == "vestido";
  }

  /** The blazer, the skirt and the blouse have no "v" in their names or
      categories, so none of them matches "VESTIDO". */
  lemma BlazerMissesVestido()
    ensures !Interactions.MatchesQuery(Catalog.Blazer, "VESTIDO")
  {
    Interactions.ProductMissesVestido(Catalog.Blazer, "Blazer Clássico Elegante", "Casacos");
  }

  lemma SkirtMissesVestido()
    ensures !Interactions.MatchesQuery(Catalog.Skirt, "VESTIDO")
  {
    Interactions.ProductMissesVestido(Catalog.Skirt, "Saia Plissada Serenity", "Saias");
  }

  lemma BlouseMissesVestido()
    ensures !Interactions.MatchesQuery(Catalog.Blouse, "VESTIDO")
  {
    Interactions.ProductMissesVestido(Catalog.Blouse, "Blusa de Seda Modesta", "Blusas");
  }

  /** On the bundled catalog, searching "VESTIDO" finds exactly the floral dress. */
  lemma SearchFallbackForVestido()
    ensures Interactions.FilterProducts(Catalog.Fallback, "VESTIDO") == [Catalog.Dress]
  {
    DressMatchesVestido();
    BlazerMissesVestido();
    SkirtMissesVestido();
    BlouseMissesVestido();
    Interactions.SearchFindsOnlyMatch(Catalog.Dress, Catalog.Blazer, Catalog.Skirt, Catalog.Blouse, "VESTIDO");
  }

  // -------------------------------------------------------------- stories

  /** The story is newer than 24 hours before `now` (strictly). */
  predicate IsFresh(s: StoryPost, now: int)
  {
    s.timestamp > now - DayMs
  }

  /** The freshness test `activeStories` filters with. */
  function FreshTest(now: int): StoryPost -> bool
  {
    (s: StoryPost) => IsFresh(s, now)
  }

  /** How many of the stories are fresh, counted one by one. */
  function FreshCount(stories: seq<StoryPost>, now: int): nat
    decreases |stories|
  {
    if |stories| == 0 then 0
    else (if IsFresh(stories[0], now) then 1 else 0) + FreshCount(stories[1..], now)
  }

  lemma {:induction false} FreshCountIsFilterLength(stories: seq<StoryPost>, now: int)
    ensures |Seqs.Filter(stories, FreshTest(now))| == FreshCount(stories, now)
    decreases |stories|
  {
    if |stories| > 0 {
      FreshCountIsFilterLength(stories[1..], now);
    }
  }

  /** `activeStories`: the fresh stories, in source order, as many as there
      are up to ten. */
  function ActiveStories(stories: seq<StoryPost>, now: int): (r: seq<StoryPost>)
    ensures |r| == if FreshCount(stories, now) < MaxStories then FreshCount(stories, now) else MaxStories
    ensures Seqs.IsSubseq(r, stories)
    ensures forall i :: 0 <= i < |r| ==> IsFresh(r[i], now)
    ensures |r| < MaxStories ==> forall s :: s in stories && IsFresh(s, now) ==> s in r
  {
    var eligible := Seqs.Filter(stories, FreshTest(now));
    var r := Seqs.Take(eligible, MaxStories);
    FreshCountIsFilterLength(stories, now);
    Seqs.PrefixOfSubseq(eligible, stories, |r|);
    r
  }

  /** `slice(0, 10)` keeps the first ten fresh stories: for any prefix of the
      stories holding at most ten fresh ones, its fresh stories, in order, open
      the active list. */
  lemma FirstFreshStoriesKept(stories: seq<StoryPost>, now: int, k: nat)
    requires k <= |stories| && FreshCount(stories[..k], now) <= MaxStories
    ensures var early := Seqs.Filter(stories[..k], FreshTest(now));
      var r := ActiveStories(stories, now);
      |early| <= |r| && r[..|early|] == early
  {
    var eligible := Seqs.Filter(stories, FreshTest(now));
    var early := Seqs.Filter(stories[..k], FreshTest(now));
    var r := ActiveStories(stories, now);
    Seqs.FilterPrefix(stories, k, FreshTest(now));
    FreshCountIsFilterLength(stories[..k], now);
    assert r == Seqs.Take(eligible, MaxStories);
  }

  /** Hence every fresh story in such a prefix is shown. */
  lemma FirstFreshStoriesShown(stories: seq<StoryPost>, now: int, k: nat)
    requires k <= |stories| && FreshCount(stories[..k], now) <= MaxStories
    ensures forall s :: s in stories[..k] && IsFresh(s, now) ==> s in ActiveStories(stories, now)
  {
    var early := Seqs.Filter(stories[..k], FreshTest(now));
    var r := ActiveStories(stories, now);
    FirstFreshStoriesKept(stories, now, k);
    forall s | s in stories[..k] && IsFresh(s, now) ensures s in r {
      assert s in early;
      assert s in r[..|early|];
    }
  }

  /** A story exactly 24 hours old is not shown. */
  lemma BoundaryStoryExcluded(stories: seq<StoryPost>, now: int, s: StoryPost)
    requires s.timestamp == now - DayMs
    ensures s !in ActiveStories(stories, now)
  {
  }

  /** Within 19 hours of loading, all five bundled stories are active, in order. */
  lemma BundledStoriesActive(loadTime: int, now: int)
    requires loadTime <= now < loadTime + 19 * Catalog.HourMs
    ensures ActiveStories(Catalog.Stories(loadTime), now) == Catalog.Stories(loadTime)
  {
    var stories := Catalog.Stories(loadTime);
    assert forall i :: 0 <= i < |stories| ==> IsFresh(stories[i], now);
    FilterAllKept(stories, FreshTest(now));
  }

  lemma {:induction false} FilterAllKept(xs: seq<StoryPost>, keep: StoryPost -> bool)
    requires forall i :: 0 <= i < |xs| ==> keep(xs[i])
    ensures Seqs.Filter(xs, keep) == xs
    decreases |xs|
  {
    if |xs| > 0 {
      FilterAllKept(xs[1..], keep);
    }
  }

  /** The profile tap opens the viewer only when there is a story to show. */
  function OpenStories(a: App, active: seq<StoryPost>): (r: App)
    ensures r.viewingStory <==> a.viewingStory || |active| > 0
    ensures r.(viewingStory := a.viewingStory) == a
  {
    if |active| > 0 then a.(viewingStory := true) else a
  }

  // ---------------------------------------------------------------- admin

  /** The state after the admin prompt and whether "access denied" was shown. */
  datatype AdminStep = AdminStep(app: App, alerted: bool)

  /** `handleAdminLogin`: `answer` is what `prompt` returned (`None` for cancel).
      Only "admin" opens the panel; cancelling is silent; anything else is refused. */
  function AdminLogin(a: App, answer: Option<string>): (r: AdminStep)
    ensures answer == Some(AdminPassword) ==> r.app == a.(view := Admin) && !r.alerted
    ensures answer != Some(AdminPassword) ==> r.app == a
    ensures r.alerted <==> answer.Some? && answer.value != AdminPassword
  {
    match answer
    case None => AdminStep(a, false)
    case Some(p) => if p == AdminPassword then AdminStep(a.(view := Admin), false) else AdminStep(a, true)
  }

  /** The admin view is reached from the landing view only with the exact password. */
  lemma AdminOnlyWithPassword(a: App, answer: Option<string>)
    requires a.view == Landing
    ensures AdminLogin(a, answer).app.view == Admin <==> answer == Some("admin")
  {
  }

  // ----------------------------------------------------------- comments

  /** The state after a comment attempt and what `onCommentAttempt` answered. */
  datatype GateStep = GateStep(app: App, allowed: bool)

  /** `onCommentAttempt`: answers whether the user is registered and opens the
      registration modal when not. */
  function CommentAttempt(a: App): (r: GateStep)
    ensures r.allowed == a.registered
    ensures r.app.modalOpen <==> a.modalOpen || !a.registered
    ensures r.app.(modalOpen := a.modalOpen) == a
  {
    if !a.registered then GateStep(a.(modalOpen := true), false) else GateStep(a, true)
  }

  /** An unregistered attempt sends no comment and opens the modal; once a
      new phone registers, the next attempt goes through without the modal. */
  lemma CommentAfterRegistration(a: App, g: Interactions.Grid, productId: int, reply: Interactions.PostReply,
                                 form: Registration.ClientData, draw: int, row: ClientRow)
    requires !a.registered && !a.modalOpen && 0 <= draw < 900000
    ensures var gate := CommentAttempt(a);
      && gate.app.modalOpen
      && Interactions.SubmitComment(g, productId, a.clientId, gate.allowed, reply).request.None?
    ensures var r := Register(CommentAttempt(a).app, form, None, draw, InsertedRow(row));
      CommentAttempt(r.app).allowed && CommentAttempt(r.app).app == r.app
  {
  }

  /** The modal wired to `handleRegisterClient`: a new phone whose insert
      succeeds brings up the success screen with the six-digit code. */
  lemma NewClientSeesCode(a: App, m: Registration.Modal, today: string, draw: int, row: ClientRow)
    requires Registration.RequiredFilled(m.form) && 0 <= draw < 900000
    ensures var data := Registration.Submit(m, today, None).sent.value;
      var r := Register(a, data, None, draw, InsertedRow(row));
      && r.code.Some?
      && Registration.ScreenOf(Registration.Submit(m, today, r.code).modal) == Registration.SuccessScreen(r.code.value)
      && |r.code.value| == 6
      && r.app.savedPhone == Some(m.form.whatsapp)
  {
  }
}

=== FILE: interactions.dfy ===
/** The interaction engine of the product grid (components/ProductGrid.tsx):
    likes, comments, the recent-comments feed, the catalog search and the
    display handle. Every backend reply is an input; nothing here waits. */
module Interactions {
  import opened Types
  import opened Strings
  import Seqs

  /** A comment as the grid keeps it. */
  datatype Comment = Comment(
    id: string,
    text: string,
    clientName: string,
    createdAt: string,
    productId: int,
    productName: Option<string>,
    productImage: Option<string>)

  /** A comment row as the backend sends it. `firstName` is `None` when the
      field is absent or null; an `id` of "" stands for an absent or falsy id. */
  datatype CommentRow = CommentRow(
    id: string,
    text: string,
    firstName: Option<string>,
    createdAt: string,
    productId: int,
    productName: Option<string>,
    productImage: Option<string>)

  /** The local state of the grid: the per-product liked flags and counters,
      the comments indexed by product id, the recent-comments feed, the text
      typed in the comment box and the search box. */
  datatype Grid = Grid(
    liked: map<int, bool>,
    counts: map<int, int>,
    comments: map<int, seq<Comment>>,
    recent: seq<Comment>,
    draft: string,
    query: string)

  const Empty: Grid := Grid(map[], map[], map[], [], "", "")

  const Anonymous: string := "Anônimo"
  const VipMember: string := "Membro VIP"
  const RecentLimit: nat := 10

  /** `name || fallback`: an absent or empty name is replaced by the fallback. */
  function NameOr(name: Option<string>, fallback: string): (r: string)
    ensures name.Some? && name.value != "" ==> r == name.value
    ensures name.None? || name.value == "" ==> r == fallback
  {
    if name.Some? && name.value != "" then name.value else fallback
  }

  // ---------------------------------------------------------------- likes

  /** The first tap on a fresh grid likes the product and sends a counter of 1. */
  lemma FirstLikeOnEmptyGrid(id: int)
    ensures IsLiked(ToggleLike(Empty, id).grid, id)
    ensures ToggleLike(Empty, id).sent == LikesUpdate(id, 1)
  {
  }

  /** An unset flag reads as "not liked". */
  predicate IsLiked(g: Grid, id: int)
  {
    id in g.liked && g.liked[id]
  }

  /** `likeCounts[id] || 0`: an unset counter reads as 0. */
  function CountOf(g: Grid, id: int): int
  {
    if id in g.counts then g.counts[id] else 0
  }

  function Max0(x: int): (r: int)
    ensures r >= 0 && r >= x && (r == x || r == 0)
  {
    if x < 0 then 0 else x
  }

  /** The body of the `update_likes` request. */
  datatype LikesUpdate = LikesUpdate(id: int, count: int)

  /** The grid after a like tap, and the request it sends. */
  datatype LikeStep = LikeStep(grid: Grid, sent: LikesUpdate)

  /** `handleLike`: flip the product's flag, move its counter one step (never
      below 0 when un-liking) and send the new counter as an absolute value. */
  function ToggleLike(g: Grid, id: int): (r: LikeStep)
    ensures IsLiked(r.grid, id) == !IsLiked(g, id)
    ensures IsLiked(g, id) ==> CountOf(r.grid, id) == Max0(CountOf(g, id) - 1)
    ensures !IsLiked(g, id) ==> CountOf(r.grid, id) == CountOf(g, id) + 1
    ensures r.sent == LikesUpdate(id, CountOf(r.grid, id))
    ensures forall p :: p != id ==> IsLiked(r.grid, p) == IsLiked(g, p) && CountOf(r.grid, p) == CountOf(g, p)
    ensures r.grid.liked - {id} == g.liked - {id} && r.grid.counts - {id} == g.counts - {id}
    ensures r.grid.(liked := g.liked, counts := g.counts) == g
  {
    var wasLiked := IsLiked(g, id);
    var current := CountOf(g, id);
    var newCount := if wasLiked then Max0(current - 1) else current + 1;
    LikeStep(g.(liked := g.liked[id := !wasLiked], counts := g.counts[id := newCount]),
             LikesUpdate(id, newCount))
  }

  /** Every stored counter is non-negative. */
  ghost predicate CountsNonNegative(g: Grid)
  {
    forall p :: p in g.counts ==> g.counts[p] >= 0
  }

  /** A like tap never makes a counter negative. */
  lemma ToggleKeepsCountsNonNegative(g: Grid, id: int)
    requires CountsNonNegative(g)
    ensures CountsNonNegative(ToggleLike(g, id).grid)
  {
    var r := ToggleLike(g, id).grid;
    forall p | p in r.counts ensures r.counts[p] >= 0 {
      if p != id {
        assert CountOf(r, p) == CountOf(g, p);
      } else {
        assert CountOf(r, id) == r.counts[id];
      }
    }
  }

  /** Two grids agree on every product's flag and counter. */
  ghost predicate SameLikes(a: Grid, b: Grid)
  {
    forall p :: IsLiked(a, p) == IsLiked(b, p) && CountOf(a, p) == CountOf(b, p)
  }

  /** Two taps on the same product restore its flag and counter exactly when
      the counter was not at the floor: at least 1 if liked, at least 0 if not.
      Everything else in the grid is restored in every case. */
  lemma ToggleTwice(g: Grid, id: int)
    ensures var g2 := ToggleLike(ToggleLike(g, id).grid, id).grid;
      && IsLiked(g2, id) == IsLiked(g, id)
      && g2.(liked := g.liked, counts := g.counts) == g
      && (SameLikes(g2, g) <==> (if IsLiked(g, id) then CountOf(g, id) >= 1 else CountOf(g, id) >= 0))
  {
    var g1 := ToggleLike(g, id).grid;
    var g2 := ToggleLike(g1, id).grid;
    if !SameLikes(g2, g) {
      var p :| !(IsLiked(g2, p) == IsLiked(g, p) && CountOf(g2, p) == CountOf(g, p));
      assert p == id;
    }
  }

  /** Liked with a counter of 0: un-liking keeps 0 and liking again gives 1,
      so a double tap is not an identity there. */
  lemma ToggleTwiceFromLikedZero(g: Grid, id: int)
    requires IsLiked(g, id) && CountOf(g, id) == 0
    ensures CountOf(ToggleLike(ToggleLike(g, id).grid, id).grid, id) == 1
  {
  }

  /** The counter a product carries from the backend: `parseInt(p.likes_count || 0)`. */
  function StoredLikes(p: Product): (r: int)
    ensures p.likesCount.None? ==> r == 0
    ensures p.likesCount.Some? ==> r == p.likesCount.value
  {
    match p.likesCount
    case None => 0
    case Some(n) => n
  }

  /** No later product in the list has the same id as `products[i]`. */
  ghost predicate LastWithId(products: seq<Product>, i: int)
    requires 0 <= i < |products|
  {
    forall j :: i < j < |products| ==> products[j].id != products[i].id
  }

  /** The counters `loadInteractions` seeds, one assignment per product in list order. */
  function SeedCounts(products: seq<Product>): (r: map<int, int>)
    ensures products == [] ==> r == map[]
    ensures products != [] ==> var last := products[|products| - 1];
      last.id in r && r[last.id] == StoredLikes(last)
  {
    if |products| == 0 then map[]
    else
      var last := products[|products| - 1];
      SeedCounts(products[..|products| - 1])[last.id := StoredLikes(last)]
  }

  /** The seeded counters have one entry per product id. */
  lemma {:induction false} SeedCountsKeys(products: seq<Product>)
    ensures SeedCounts(products).Keys == set p | p in products :: p.id
    decreases |products|
  {
    if |products| > 0 {
      var init := products[..|products| - 1];
      var last := products[|products| - 1];
      SeedCountsKeys(init);
      assert products == init + [last];
      assert (set p | p in products :: p.id) == (set p | p in init :: p.id) + {last.id};
    }
  }

  /** The last product with a given id decides that id's seeded counter. */
  lemma {:induction false} SeedCountsAt(products: seq<Product>, i: int)
    requires 0 <= i < |products| && LastWithId(products, i)
    ensures products[i].id in SeedCounts(products)
    ensures SeedCounts(products)[products[i].id] == StoredLikes(products[i])
    decreases |products|
  {
    if i < |products| - 1 {
      var init := products[..|products| - 1];
      assert init[i] == products[i];
      forall j | i < j < |init| ensures init[j].id != init[i].id {
        assert init[j] == products[j];
      }
      SeedCountsAt(init, i);
      assert products[|products| - 1].id != products[i].id;
    }
  }

  /** The seeded counters have one entry per product id, and the last product
      with a given id decides its counter. */
  lemma SeedCountsSpec(products: seq<Product>)
    ensures SeedCounts(products).Keys == set p | p in products :: p.id
    ensures forall i :: 0 <= i < |products| && LastWithId(products, i) ==>
      SeedCounts(products)[products[i].id] == StoredLikes(products[i])
  {
    SeedCountsKeys(products);
    forall i | 0 <= i < |products| && LastWithId(products, i)
      ensures SeedCounts(products)[products[i].id] == StoredLikes(products[i])
    {
      SeedCountsAt(products, i);
    }
  }

  // ------------------------------------------------------------- comments

  /** A loaded comment as indexed for the reels, with "Anônimo" for a missing name. */
  function FormatIndexed(row: CommentRow): (c: Comment)
    ensures c.clientName == NameOr(row.firstName, Anonymous)
    ensures c.productId == row.productId && c.id == row.id && c.text == row.text
    ensures c.createdAt == row.createdAt
  {
    Comment(row.id, row.text, NameOr(row.firstName, Anonymous), row.createdAt, row.productId, None, None)
  }

  /** A loaded comment as shown in the recent feed, with "Membro VIP" for a missing name. */
  function FormatRecent(row: CommentRow): (c: Comment)
    ensures c.clientName == NameOr(row.firstName, VipMember)
    ensures c.productId == row.productId && c.id == row.id && c.text == row.text
    ensures c.createdAt == row.createdAt
    ensures c.productName == row.productName && c.productImage == row.productImage
  {
    Comment(row.id, row.text, NameOr(row.firstName, VipMember), row.createdAt, row.productId,
            row.productName, row.productImage)
  }

  function CommentsOf(g: Grid, id: int): seq<Comment>
  {
    if id in g.comments then g.comments[id] else []
  }

  function Bucket(m: map<int, seq<Comment>>, id: int): seq<Comment>
  {
    if id in m then m[id] else []
  }

  /** The `forEach` of `loadInteractions`: each row pushed, in order, onto the
      list of its product id. */
  function IndexComments(rows: seq<CommentRow>): (r: map<int, seq<Comment>>)
    ensures rows == [] ==> r == map[]
    ensures rows != [] ==> var last := rows[|rows| - 1];
      last.productId in r && |r[last.productId]| > 0 && r[last.productId][|r[last.productId]| - 1] == FormatIndexed(last)
  {
    if |rows| == 0 then map[]
    else
      var m := IndexComments(rows[..|rows| - 1]);
      var row := rows[|rows| - 1];
      m[row.productId := Bucket(m, row.productId) + [FormatIndexed(row)]]
  }

  /** The index has a list for exactly the product ids that occur among the rows. */
  lemma {:induction false} IndexCommentsKeys(rows: seq<CommentRow>)
    ensures IndexComments(rows).Keys == set row | row in rows :: row.productId
    decreases |rows|
  {
    if |rows| > 0 {
      var init := rows[..|rows| - 1];
      var row := rows[|rows| - 1];
      IndexCommentsKeys(init);
      assert rows == init + [row];
      assert (set x | x in rows :: x.productId) == (set x | x in init :: x.productId) + {row.productId};
    }
  }

  function FormatAll(rows: seq<CommentRow>): (r: seq<Comment>)
    ensures |r| == |rows|
    ensures forall i :: 0 <= i < |rows| ==> r[i] == FormatIndexed(rows[i])
  {
    seq(|rows|, i requires 0 <= i < |rows| => FormatIndexed(rows[i]))
  }

  /** The rows that belong to product `id`. */
  function RowsFor(rows: seq<CommentRow>, id: int): seq<CommentRow>
  {
    Seqs.Filter(rows, (row: CommentRow) => row.productId == id)
  }

  /** The list indexed under a product is exactly that product's rows, formatted,
      in the order the backend sent them; products without rows get no list. */
  lemma {:induction false} IndexedBucketIsFilter(rows: seq<CommentRow>, id: int)
    ensures Bucket(IndexComments(rows), id) == FormatAll(RowsFor(rows, id))
    decreases |rows|
  {
    if |rows| > 0 {
      var init := rows[..|rows| - 1];
      var row := rows[|rows| - 1];
      assert rows == init + [row];
      IndexedBucketIsFilter(init, id);
      var m := IndexComments(init);
      assert IndexComments(rows) == m[row.productId := Bucket(m, row.productId) + [FormatIndexed(row)]];
      Seqs.FilterSnoc(init, row, (r: CommentRow) => r.productId == id);
      var before := RowsFor(init, id);
      if row.productId == id {
        assert RowsFor(rows, id) == before + [row];
        FormatAllSnoc(before, row);
      } else {
        assert RowsFor(rows, id) == before;
        assert Bucket(IndexComments(rows), id) == Bucket(m, id);
      }
    }
  }

  lemma FormatAllSnoc(rows: seq<CommentRow>, row: CommentRow)
    ensures FormatAll(rows + [row]) == FormatAll(rows) + [FormatIndexed(row)]
  {
  }

  /** What the `get_comments` request produced: a thrown error (network or JSON),
      a null body, a body that is not an array, or an array of rows. */
  datatype CommentsReply = FetchThrew | NullBody | OtherBody | Rows(rows: seq<CommentRow>)

  /** The comment index after the `get_comments` reply: an array is indexed,
      a null body indexes nothing, and a thrown error (including `forEach` on
      a body that is not an array) keeps the old index. */
  function ReindexComments(previous: map<int, seq<Comment>>, reply: CommentsReply): (r: map<int, seq<Comment>>)
    ensures reply.Rows? ==> r == IndexComments(reply.rows)
    ensures reply.NullBody? ==> r == map[]
    ensures reply.FetchThrew? || reply.OtherBody? ==> r == previous
  {
    match reply
    case Rows(rows) => IndexComments(rows)
    case NullBody => map[]
    case _ => previous
  }

  /** `loadInteractions`, run only when the product list is non-empty: the
      counters are reseeded from the products before the comments are
      requested, so they are reseeded whatever the reply. */
  function LoadInteractions(g: Grid, products: seq<Product>, reply: CommentsReply): (r: Grid)
    ensures products == [] ==> r == g
    ensures products != [] ==> r.counts == SeedCounts(products) && r.comments == ReindexComments(g.comments, reply)
    ensures r.(counts := g.counts, comments := g.comments) == g
  {
    if products == [] then g
    else g.(counts := SeedCounts(products), comments := ReindexComments(g.comments, reply))
  }

  /** `loadRecentComments`: an array body replaces the feed with its first ten
      rows, in the order sent; any other outcome keeps the feed. */
  function LoadRecent(g: Grid, reply: CommentsReply): (r: Grid)
    ensures reply.Rows? ==> |r.recent| == (if |reply.rows| < RecentLimit then |reply.rows| else RecentLimit)
    ensures reply.Rows? ==> forall i :: 0 <= i < |r.recent| ==> r.recent[i] == FormatRecent(reply.rows[i])
    ensures !reply.Rows? ==> r == g
    ensures r.(recent := g.recent) == g
  {
    match reply
    case Rows(rows) =>
      var formatted := seq(|rows|, i requires 0 <= i < |rows| => FormatRecent(rows[i]));
      g.(recent := Seqs.Take(formatted, RecentLimit))
    case _ => g
  }

  /** The body of the `post_comment` request; the text is sent untrimmed. */
  datatype PostComment = PostComment(clientId: Option<string>, productId: int, text: string)

  /** What the `post_comment` request produced: a thrown error, or a parsed
      body (null when absent). */
  datatype PostReply = PostThrew | PostBody(body: Option<CommentRow>)

  /** The grid after a comment submission, the request sent (if any) and
      whether the failure alert was raised. */
  datatype SubmitStep = SubmitStep(grid: Grid, request: Option<PostComment>, alerted: bool)

  /** The reply confirms a stored comment: a body with a truthy `id`. */
  predicate Confirms(reply: PostReply)
  {
    reply.PostBody? && reply.body.Some? && reply.body.value.id != ""
  }

  /** The comment built from a confirmed reply. A missing name falls back to
      "Anônimo", as the loaded comments do (see `FormatPostedAsWritten`). */
  function FormatPosted(row: CommentRow): (c: Comment)
    ensures c.clientName == NameOr(row.firstName, Anonymous) && c.clientName != ""
    ensures c.id == row.id && c.text == row.text && c.productId == row.productId
    ensures c.createdAt == row.createdAt
  {
    Comment(row.id, row.text, NameOr(row.firstName, Anonymous), row.createdAt, row.productId, None, None)
  }

  /** `submitComment`. `gate` is what `onCommentAttempt()` answered. Nothing is
      sent when the gate is closed or the draft is blank. Only a confirmed reply
      is appended, at the end of the product's own list, and clears the draft;
      an unconfirmed reply changes nothing, a thrown error raises the alert. */
  function SubmitComment(g: Grid, productId: int, clientId: Option<string>, gate: bool, reply: PostReply): (r: SubmitStep)
    ensures r.request.None? <==> !gate || IsBlank(g.draft)
    ensures r.request.None? ==> r.grid == g && !r.alerted
    ensures r.request.Some? ==> r.request.value == PostComment(clientId, productId, g.draft)
    ensures r.alerted <==> r.request.Some? && reply.PostThrew?
    ensures r.request.Some? && Confirms(reply) ==>
      && CommentsOf(r.grid, productId) == CommentsOf(g, productId) + [FormatPosted(reply.body.value)]
      && r.grid.draft == ""
    ensures !(r.request.Some? && Confirms(reply)) ==> r.grid == g
    ensures r.grid.comments - {productId} == g.comments - {productId}
    ensures r.grid.(comments := g.comments, draft := g.draft) == g
  {
    if !gate || IsBlank(g.draft) then SubmitStep(g, None, false)
    else
      var request := Some(PostComment(clientId, productId, g.draft));
      match reply
      case PostThrew => SubmitStep(g, request, true)
      case PostBody(body) =>
        if Confirms(reply) then
          var list := CommentsOf(g, productId) + [FormatPosted(body.value)];
          SubmitStep(g.(comments := g.comments[productId := list], draft := ""), request, false)
        else SubmitStep(g, request, false)
  }

  /** A comment submission never shrinks or reorders a list: every product's
      list before is a prefix of its list after. */
  lemma SubmitOnlyAppends(g: Grid, productId: int, clientId: Option<string>, gate: bool, reply: PostReply, p: int)
    ensures var after := CommentsOf(SubmitComment(g, productId, clientId, gate, reply).grid, p);
      |CommentsOf(g, p)| <= |after| <= |CommentsOf(g, p)| + 1 && after[..|CommentsOf(g, p)|] == CommentsOf(g, p)
  {
    var r := SubmitComment(g, productId, clientId, gate, reply).grid;
    if p != productId {
      assert p in r.comments <==> p in g.comments by {
        assert p in r.comments <==> p in r.comments - {productId};
        assert p in g.comments <==> p in g.comments - {productId};
      }
      if p in g.comments {
        assert r.comments[p] == (r.comments - {productId})[p];
      }
    }
  }

  // ------------------------------------------------- names and handles

  /** Every comment in the grid carries a non-empty client name. */
  ghost predicate NamedComments(g: Grid)
  {
    forall p, i :: p in g.comments && 0 <= i < |g.comments[p]| ==> g.comments[p][i].clientName != ""
  }

  /** Loading comments only ever stores named comments. */
  lemma LoadKeepsNamed(g: Grid, products: seq<Product>, loaded: CommentsReply)
    requires NamedComments(g)
    ensures NamedComments(LoadInteractions(g, products, loaded))
  {
    if loaded.Rows? && products != [] {
      var m: map<int, seq<Comment>> := IndexComments(loaded.rows);
      forall p: int, i: int | p in m && 0 <= i < |m[p]| ensures m[p][i].clientName != "" {
        IndexedBucketIsFilter(loaded.rows, p);
        assert m[p] == Bucket(m, p);
      }
    }
  }

  /** Submitting a comment only ever stores a named comment. */
  lemma SubmitKeepsNamed(g: Grid, productId: int, clientId: Option<string>, gate: bool, posted: PostReply)
    requires NamedComments(g)
    ensures NamedComments(SubmitComment(g, productId, clientId, gate, posted).grid)
  {
    var r := SubmitComment(g, productId, clientId, gate, posted).grid;
    if r != g {
      forall p, i | p in r.comments && 0 <= i < |r.comments[p]| ensures r.comments[p][i].clientName != "" {
        if p != productId {
          assert r.comments[p] == (r.comments - {productId})[p] == (g.comments - {productId})[p];
        } else if i < |CommentsOf(g, productId)| {
          assert r.comments[p][i] == CommentsOf(g, productId)[i];
        }
      }
    }
  }

  /** `@` + `name.toLowerCase().replace(/\s/g, '_')`, without the `@`: same
      length as the name, no whitespace left, whitespace turned into `_` and
      every other character lowered. */
  function Handle(name: string): (r: string)
    ensures |r| == |name|
    ensures forall i :: 0 <= i < |r| ==> !IsSpace(r[i]) && !IsUpper(r[i])
    ensures forall i :: 0 <= i < |name| && IsSpace(name[i]) ==> r[i] == '_'
    ensures forall i :: 0 <= i < |name| && !IsSpace(name[i]) ==> r[i] == ToLower(name[i])
  {
    var lowered := Lower(name);
    seq(|lowered|, i requires 0 <= i < |lowered| => if IsSpace(lowered[i]) then '_' else lowered[i])
  }

  /** Deriving a handle from a handle changes nothing. */
  lemma HandleIdempotent(name: string)
    ensures Handle(Handle(name)) == Handle(name)
  {
  }

  // ------------------------------------------------------------- search

  /** The query occurs, ignoring case, in the product's name or category. */
  predicate MatchesQuery(p: Product, query: string)
  {
    Includes(Lower(p.name), Lower(query)) || Includes(Lower(p.category), Lower(query))
  }

  /** The test `filteredProducts` filters with. */
  function QueryTest(query: string): Product -> bool
  {
    (p: Product) => MatchesQuery(p, query)
  }

  /** `filteredProducts`: every product for an empty query, otherwise the
      matching products in catalog order. */
  function FilterProducts(products: seq<Product>, query: string): (r: seq<Product>)
    ensures query == "" ==> r == products
    ensures Seqs.IsSubseq(r, products)
    ensures forall i :: 0 <= i < |r| ==> MatchesQuery(r[i], query)
    ensures forall p :: p in products && MatchesQuery(p, query) ==> p in r
  {
    if query == "" then
      assert Seqs.IsSubseq(products, products) by { SubseqRefl(products); }
      products
    else Seqs.Filter(products, QueryTest(query))
  }

  lemma {:induction false} SubseqRefl(xs: seq<Product>)
    ensures Seqs.IsSubseq(xs, xs)
    decreases |xs|
  {
    if |xs| > 0 {
      SubseqRefl(xs[1..]);
    }
  }

  /** The early return for an empty query agrees with filtering: every product matches "". */
  lemma EmptyQueryMatchesAll(p: Product)
    ensures MatchesQuery(p, "")
  {
    assert Lower("") == "";
    IncludesEmpty(Lower(p.name));
  }

  /** Each product appears in the search result exactly as often as in the
      catalog when it matches, and not at all otherwise. */
  lemma FilterProductsCounts(products: seq<Product>, query: string)
    ensures forall p :: p in products ==>
      multiset(FilterProducts(products, query))[p] == if MatchesQuery(p, query) then multiset(products)[p] else 0
  {
    if query == "" {
      forall p | p in products ensures MatchesQuery(p, query) {
        EmptyQueryMatchesAll(p);
      }
    } else {
      Seqs.FilterCounts(products, QueryTest(query));
    }
  }

  /** The search ignores the case of the query. */
  lemma SearchIgnoresQueryCase(products: seq<Product>, query: string)
    ensures FilterProducts(products, Lower(query)) == FilterProducts(products, query)
  {
    LowerIdempotent(query);
    LowerEmptyIff(query);
    Seqs.FilterSameKeep(products, QueryTest(Lower(query)), QueryTest(query));
  }

  /** A text with no "v" or "V" does not include "VESTIDO", in any case. */
  lemma TextMissesVestido(text: string)
    requires forall i :: 0 <= i < |text| ==> text[i] != 'v' && text[i] != 'V'
    ensures !Includes(Lower(text), Lower("VESTIDO"))
  {
    assert Lower("VESTIDO") == "vestido";
    LowerAvoids(text, 'v');
    MissingFirstNotIncluded(Lower(text), "vestido");
  }

  /** A product whose name and category have no "v" or "V" does not match "VESTIDO". */
  lemma ProductMissesVestido(p: Product, name: string, category: string)
    requires p.name == name && p.category == category
    requires forall i :: 0 <= i < |name| ==> name[i] != 'v' && name[i] != 'V'
    requires forall i :: 0 <= i < |category| ==> category[i] != 'v' && category[i] != 'V'
    ensures !MatchesQuery(p, "VESTIDO")
  {
    TextMissesVestido(name);
    TextMissesVestido(category);
  }

  /** A non-empty search over four products of which only the first matches finds just that product. */
  lemma SearchFindsOnlyMatch(a: Product, b: Product, c: Product, d: Product, query: string)
    requires query != "" && MatchesQuery(a, query)
    requires !MatchesQuery(b, query) && !MatchesQuery(c, query) && !MatchesQuery(d, query)
    ensures FilterProducts([a, b, c, d], query) == [a]
  {
    var ps := [a, b, c, d];
    var keep := QueryTest(query);
    assert forall i :: 0 <= i < |ps[1..]| ==> !keep(ps[1..][i]);
    Seqs.FilterNoneKept(ps[1..], keep);
  }

  // ---------------------------------------------------------- finding

  /** The comment exactly as `submitComment` builds it: the name is copied from
      the reply with no fallback, so it may be absent. */
  datatype PostedAsWritten = PostedAsWritten(id: string, text: string, clientName: Option<string>, createdAt: string, productId: int)

  function FormatPostedAsWritten(row: CommentRow): (c: PostedAsWritten)
    ensures c.clientName == row.firstName
  {
    PostedAsWritten(row.id, row.text, row.firstName, row.createdAt, row.productId)
  }

  /** The handle the reels render for a name; `None` is the error thrown by
      calling `toLowerCase` on an absent name. */
  function HandleAsWritten(name: Option<string>): (r: Option<string>)
    ensures r.None? <==> name.None?
  {
    match name
    case None => None
    case Some(n) => Some(Handle(n))
  }

  /** `submitComment` as written: the comment it appends, if any, carrying the
      reply's `first_name` as is. */
  function SubmitCommentAsWritten(g: Grid, productId: int, gate: bool, reply: PostReply): (r: Option<PostedAsWritten>)
    ensures r.Some? <==> gate && !IsBlank(g.draft) && Confirms(reply)
    ensures r.Some? ==> r.value.clientName == reply.body.value.firstName
  {
    if gate && !IsBlank(g.draft) && Confirms(reply) then Some(FormatPostedAsWritten(reply.body.value)) else None
  }

  /** The corrected submission appends a comment exactly when the code as written does,
      with the same id, text, date and product; the name differs only when the reply
      has no non-empty `first_name`, and is then "Anônimo". */
  lemma SubmitCorrectsOnlyTheName(g: Grid, productId: int, clientId: Option<string>, gate: bool, reply: PostReply)
    ensures var w := SubmitCommentAsWritten(g, productId, gate, reply);
      var after := CommentsOf(SubmitComment(g, productId, clientId, gate, reply).grid, productId);
      && (w.Some? <==> |after| == |CommentsOf(g, productId)| + 1)
      && (w.Some? ==>
          var c := after[|after| - 1];
          && c.id == w.value.id && c.text == w.value.text && c.productId == w.value.productId
          && c.createdAt == w.value.createdAt
          && c.clientName == NameOr(w.value.clientName, Anonymous))
  {
  }

  /** A confirmed reply without `first_name` yields a comment whose handle cannot be rendered. */
  lemma PostedWithoutNameBreaksHandle()
    ensures var row := CommentRow("9", "Amei!", None, "2024-01-01", 1, None, None);
      && Confirms(PostBody(Some(row)))
      && HandleAsWritten(FormatPostedAsWritten(row).clientName).None?
      && FormatPosted(row).clientName == Anonymous
  {
  }
}

=== FILE: registration.dfy ===
/** The registration form (components/RegistrationModal.tsx): the required
    fields checked before submitting, and the switch to the success screen
    when a code comes back. */
module Registration {
  import opened Types

  /** What the form hands to the application; `date` is the submission day as text. */
  datatype ClientData = ClientData(firstName: string, lastName: string, nickname: string, whatsapp: string, date: string)

  /** The four inputs of the form. */
  datatype FormData = FormData(firstName: string, lastName: string, nickname: string, whatsapp: string)

  /** The form inputs, the loading flag and the access code once one came back. */
  datatype Modal = Modal(form: FormData, loading: bool, code: Option<string>)

  /** What the modal shows. */
  datatype Screen = FormScreen | SuccessScreen(code: string)

  const Blank: Modal := Modal(FormData("", "", "", ""), false, None)

  /** First name, last name and WhatsApp are non-empty. Only emptiness is
      checked: a name of spaces passes, and the nickname is never needed. */
  predicate RequiredFilled(f: FormData)
  {
    f.firstName != "" && f.lastName != "" && f.whatsapp != ""
  }

  /** `if (generatedPassword)`: the success screen with the code, once a
      non-empty code is held; the form otherwise. */
  function ScreenOf(m: Modal): (s: Screen)
    ensures s.SuccessScreen? <==> m.code.Some? && m.code.value != ""
    ensures s.SuccessScreen? ==> s.code == m.code.value
  {
    if m.code.Some? && m.code.value != "" then SuccessScreen(m.code.value) else FormScreen
  }

  /** The modal after a submission, the data handed to `onSubmit` (if any),
      and whether the missing-fields alert was raised. */
  datatype SubmitOutcome = SubmitOutcome(modal: Modal, sent: Option<ClientData>, alerted: bool)

  /** `handleSubmit`. `today` is the formatted date; `reply` is what `onSubmit`
      resolved to. A missing required field alerts and sends nothing; otherwise
      the form is sent and a non-empty code is kept for the success screen. */
  function Submit(m: Modal, today: string, reply: Option<string>): (r: SubmitOutcome)
    ensures r.sent.Some? <==> RequiredFilled(m.form)
    ensures r.alerted <==> !RequiredFilled(m.form)
    ensures !RequiredFilled(m.form) ==> r.modal == m
    ensures r.sent.Some? ==> r.sent.value == ClientData(m.form.firstName, m.form.lastName, m.form.nickname, m.form.whatsapp, today)
    ensures r.sent.Some? ==> !r.modal.loading && r.modal.form == m.form
    ensures r.sent.Some? && reply.Some? && reply.value != "" ==> ScreenOf(r.modal) == SuccessScreen(reply.value)
    ensures reply.None? || reply.value == "" ==> r.modal.code == m.code
  {
    if !RequiredFilled(m.form) then SubmitOutcome(m, None, true)
    else
      var data := ClientData(m.form.firstName, m.form.lastName, m.form.nickname, m.form.whatsapp, today);
      var code := if reply.Some? && reply.value != "" then reply else m.code;
      SubmitOutcome(m.(loading := false, code := code), Some(data), false)
  }

  /** Calling `handleSubmit` on the untouched form alerts, sends nothing and
      stays on the form. */
  lemma BlankFormAlerts(today: string, reply: Option<string>)
    ensures var r := Submit(Blank, today, reply);
      r.alerted && r.sent.None? && ScreenOf(r.modal) == FormScreen
  {
  }

  /** The nickname never decides whether the form is sent. */
  lemma NicknameNeverRequired(m: Modal, nickname: string, today: string, reply: Option<string>)
    ensures Submit(m.(form := m.form.(nickname := nickname)), today, reply).sent.Some?
        == Submit(m, today, reply).sent.Some?
  {
  }

  /** A null reply on the blank form leaves the form screen with no code. */
  lemma NullReplyKeepsForm(m: Modal, today: string)
    requires m.code.None?
    ensures ScreenOf(Submit(m, today, None).modal) == FormScreen
    ensures Submit(m, today, None).modal.code.None?
  {
  }

  /** Names made only of spaces are accepted: the check is emptiness, not trimmed emptiness. */
  lemma SpacesPassTheCheck()
    ensures Submit(Modal(FormData(" ", " ", "", " "), false, None), "01/01/2025", None).sent.Some?
  {
  }
}

=== FILE: seqs.dfy ===
/** Order-preserving selection on sequences, shared by the catalog search and the story window. */
module Seqs {

  /** `xs` is obtained from `ys` by deleting elements, keeping the order of the rest. */
  predicate IsSubseq<T(==)>(xs: seq<T>, ys: seq<T>)
    decreases |ys|
  {
    if |xs| == 0 then true
    else if |ys| == 0 then false
    else if xs[0] == ys[0] then IsSubseq(xs[1..], ys[1..])
    else IsSubseq(xs, ys[1..])
  }

  /** JavaScript's `Array.prototype.filter`: the elements that pass `keep`, in their original order. */
  function Filter<T(==)>(xs: seq<T>, keep: T -> bool): (r: seq<T>)
    ensures |r| <= |xs|
    ensures IsSubseq(r, xs)
    ensures forall i :: 0 <= i < |r| ==> keep(r[i])
    ensures forall x :: x in xs && keep(x) ==> x in r
    ensures forall x :: x in r ==> x in xs
  {
    if |xs| == 0 then []
    else
      var rest := Filter(xs[1..], keep);
      if keep(xs[0]) then
        assert ([xs[0]] + rest)[1..] == rest;
        [xs[0]] + rest
      else
        assert |rest| > 0 ==> rest[0] != xs[0] && keep(rest[0]);
        rest
  }

  /** JavaScript's `slice(0, n)`: at most the first `n` elements. */
  function Take<T>(xs: seq<T>, n: nat): (r: seq<T>)
    ensures |r| == if |xs| <= n then |xs| else n
    ensures r == xs[..|r|]
  {
    if |xs| <= n then xs else xs[..n]
  }

  /** Filtering an extended sequence filters the old part and then the new element. */
  lemma {:induction false} FilterSnoc<T>(xs: seq<T>, x: T, keep: T -> bool)
    ensures Filter(xs + [x], keep) == Filter(xs, keep) + (if keep(x) then [x] else [])
    decreases |xs|
  {
    if |xs| == 0 {
      assert xs + [x] == [x];
      assert [x][1..] == [];
    } else {
      assert (xs + [x])[0] == xs[0];
      assert (xs + [x])[1..] == xs[1..] + [x];
      FilterSnoc(xs[1..], x, keep);
    }
  }

  /** A prefix of a subsequence is still a subsequence. */
  lemma {:induction false} PrefixOfSubseq<T>(xs: seq<T>, ys: seq<T>, k: nat)
    requires IsSubseq(xs, ys)
    requires k <= |xs|
    ensures IsSubseq(xs[..k], ys)
    decreases |ys|
  {
    if k == 0 || |xs| == 0 {
    } else if xs[0] == ys[0] {
      assert xs[..k][1..] == xs[1..][..k - 1];
      PrefixOfSubseq(xs[1..], ys[1..], k - 1);
    } else {
      PrefixOfSubseq(xs, ys[1..], k);
    }
  }

  /** `Filter` keeps every copy of a passing element and no copy of a failing one. */
  lemma {:induction false} FilterCounts<T>(xs: seq<T>, keep: T -> bool)
    ensures forall x :: x in xs ==> multiset(Filter(xs, keep))[x] == if keep(x) then multiset(xs)[x] else 0
    decreases |xs|
  {
    if |xs| > 0 {
      FilterCounts(xs[1..], keep);
      assert xs == [xs[0]] + xs[1..];
      assert multiset(xs) == multiset{xs[0]} + multiset(xs[1..]);
      var rest := Filter(xs[1..], keep);
      if keep(xs[0]) {
        assert multiset([xs[0]] + rest) == multiset{xs[0]} + multiset(rest);
      }
    }
  }

  /** Filtering a concatenation filters each part. */
  lemma {:induction false} FilterAppend<T>(xs: seq<T>, ys: seq<T>, keep: T -> bool)
    ensures Filter(xs + ys, keep) == Filter(xs, keep) + Filter(ys, keep)
    decreases |xs|
  {
    if |xs| == 0 {
      assert xs + ys == ys;
    } else {
      assert (xs + ys)[0] == xs[0];
      assert (xs + ys)[1..] == xs[1..] + ys;
      FilterAppend(xs[1..], ys, keep);
    }
  }

  /** Filtering a prefix of `xs` gives a prefix of filtering `xs`. */
  lemma FilterPrefix<T>(xs: seq<T>, k: nat, keep: T -> bool)
    requires k <= |xs|
    ensures |Filter(xs[..k], keep)| <= |Filter(xs, keep)|
    ensures Filter(xs, keep)[..|Filter(xs[..k], keep)|] == Filter(xs[..k], keep)
  {
    assert xs == xs[..k] + xs[k..];
    FilterAppend(xs[..k], xs[k..], keep);
  }

  /** When no element passes, nothing is kept. */
  lemma {:induction false} FilterNoneKept<T>(xs: seq<T>, keep: T -> bool)
    requires forall i :: 0 <= i < |xs| ==> !keep(xs[i])
    ensures Filter(xs, keep) == []
    decreases |xs|
  {
    if |xs| > 0 {
      FilterNoneKept(xs[1..], keep);
    }
  }

  /** Filtering with two tests that agree everywhere gives the same result. */
  lemma {:induction false} FilterSameKeep<T>(xs: seq<T>, f: T -> bool, g: T -> bool)
    requires forall x :: f(x) == g(x)
    ensures Filter(xs, f) == Filter(xs, g)
    decreases |xs|
  {
    if |xs| > 0 {
      FilterSameKeep(xs[1..], f, g);
    }
  }
}

=== FILE: story_player.dfy ===
/** The story viewer (components/StoryViewer.tsx) as a state machine over
    the current story and its progress; the 50 ms interval is a tick event. */
module StoryPlayer {
  import opened Types

  const StoryDurationMs: int := 5000
  const TickMs: int := 50

  /** Progress added per tick: 100 / (5000 / 50), which is exactly 1. */
  const Step: int := 100 / (StoryDurationMs / TickMs)

  /** Playing story `index` with `progress` percent elapsed, or closed
      (the viewer called `onClose`). */
  datatype Player = Playing(index: int, progress: int) | Closed

  /** The viewer as it opens on `initial` (0 unless given). */
  function Open(initial: int): Player
  {
    Playing(initial, 0)
  }

  /** Open, or showing one of the `n` stories with progress in [0, 100]. */
  predicate Valid(p: Player, n: int)
  {
    p.Closed? || (0 <= p.index < n && 0 <= p.progress <= 100)
  }

  /** `nextStory`: the following story from its start, or close after the last. */
  function Next(p: Player, n: int): (r: Player)
    ensures r.Closed? <==> p.Closed? || p.index >= n - 1
    ensures r.Playing? ==> r == Playing(p.index + 1, 0)
    ensures Valid(p, n) ==> Valid(r, n)
  {
    match p
    case Closed => Closed
    case Playing(i, _) => if i < n - 1 then Playing(i + 1, 0) else Closed
  }

  /** `prevStory`: the preceding story from its start; nothing happens at the first. */
  function Prev(p: Player): (r: Player)
    ensures p.Playing? && p.index > 0 ==> r == Playing(p.index - 1, 0)
    ensures !(p.Playing? && p.index > 0) ==> r == p
    ensures forall n :: Valid(p, n) ==> Valid(r, n)
  {
    match p
    case Closed => Closed
    case Playing(i, pr) => if i > 0 then Playing(i - 1, 0) else p
  }

  /** One interval tick: below 100 the progress grows by one step; at 100 or
      more the viewer moves on exactly as `nextStory` does. */
  function Tick(p: Player, n: int): (r: Player)
    ensures p.Playing? && p.progress < 100 ==> r == Playing(p.index, p.progress + 1)
    ensures p.Playing? && p.progress >= 100 ==> r == Next(p, n)
    ensures p.Closed? ==> r.Closed?
    ensures Valid(p, n) ==> Valid(r, n)
  {
    match p
    case Closed => Closed
    case Playing(i, pr) => if pr >= 100 then Next(p, n) else Playing(i, pr + Step)
  }

  /** The user-visible events: a tick, a tap on the left or right area, the close button. */
  datatype Event = TickEvent | LeftTap | RightTap | CloseTap

  /** The area a tap at pixel `x` lands in when the content is `width` pixels
      wide: the nav strip is split into a `w-[20%]` area bound to `prevStory`
      and a `w-[80%]` area bound to `nextStory`. */
  function TapZone(x: int, width: int): (e: Event)
    requires 0 <= x < width
    ensures e == LeftTap <==> (x as real) < 0.2 * (width as real)
    ensures e == RightTap <==> 0.2 * (width as real) <= (x as real)
  {
    if 5 * x < width then LeftTap else RightTap
  }

  function Apply(p: Player, n: int, e: Event): Player
  {
    match e
    case TickEvent => Tick(p, n)
    case LeftTap => Prev(p)
    case RightTap => Next(p, n)
    case CloseTap => Closed
  }

  function Run(p: Player, n: int, events: seq<Event>): Player
    decreases |events|
  {
    if |events| == 0 then p else Run(Apply(p, n, events[0]), n, events[1..])
  }

  /** Whatever happens, an open viewer stays on one of its stories with progress in [0, 100]. */
  lemma {:induction false} RunStaysValid(p: Player, n: int, events: seq<Event>)
    requires Valid(p, n)
    ensures Valid(Run(p, n, events), n)
    decreases |events|
  {
    if |events| > 0 {
      RunStaysValid(Apply(p, n, events[0]), n, events[1..]);
    }
  }

  /** A tap in the left 20% runs `prevStory`, anywhere else `nextStory`. */
  lemma TapMovesStory(p: Player, n: int, x: int, width: int)
    requires 0 <= x < width
    ensures Apply(p, n, TapZone(x, width)) ==
      if (x as real) < 0.2 * (width as real) then Prev(p) else Next(p, n)
  {
  }

  /** Tapping back and then forward returns to the start of the same story,
      except on the first story, where the back tap does nothing. */
  lemma BackThenForward(i: int, progress: int, n: int, left: int, right: int, width: int)
    requires Valid(Playing(i, progress), n)
    requires 0 <= left < width && 0 <= right < width
    requires (left as real) < 0.2 * (width as real) <= (right as real)
    ensures Run(Playing(i, progress), n, [TapZone(left, width), TapZone(right, width)]) ==
      if i > 0 then Playing(i, 0) else Next(Playing(0, progress), n)
  {
    var p := Playing(i, progress);
    var taps := [TapZone(left, width), TapZone(right, width)];
    assert taps[1..] == [TapZone(right, width)] && taps[1..][1..] == [];
    var back := Apply(p, n, taps[0]);
    assert back == Prev(p) by { TapMovesStory(p, n, left, width); }
    assert Apply(back, n, taps[1]) == Next(back, n) by { TapMovesStory(back, n, right, width); }
    assert Run(p, n, taps) == Run(back, n, taps[1..]);
    assert Run(back, n, taps[1..]) == Run(Next(back, n), n, []);
  }

  /** A viewer opened on one of its stories stays on its stories, with progress
      in [0, 100], whatever happens next. */
  lemma OpenedViewerStaysValid(initial: int, n: int, events: seq<Event>)
    requires 0 <= initial < n
    ensures Valid(Run(Open(initial), n, events), n)
  {
    RunStaysValid(Open(initial), n, events);
  }

  /** `stories[currentIndex]`: the story shown, or nothing when closed or the index is out of range. */
  function Shown(p: Player, stories: seq<StoryPost>): (r: Option<StoryPost>)
    ensures r.Some? <==> p.Playing? && 0 <= p.index < |stories|
    ensures r.Some? ==> r.value == stories[p.index]
  {
    if p.Playing? && 0 <= p.index < |stories| then Some(stories[p.index]) else None
  }

  /** A valid open viewer always shows a story. */
  lemma ValidShowsStory(p: Player, stories: seq<StoryPost>)
    requires Valid(p, |stories|) && p.Playing?
    ensures Shown(p, stories).Some?
  {
  }

  /** The width, in percent, of progress bar `bar`: full before the current
      story, the progress on it, empty after it. */
  function BarWidth(bar: int, index: int, progress: int): (w: int)
    ensures bar < index ==> w == 100
    ensures bar == index ==> w == progress
    ensures bar > index ==> w == 0
    ensures 0 <= progress <= 100 ==> 0 <= w <= 100
  {
    if bar == index then progress else if bar < index then 100 else 0
  }

  /** The bars never widen from left to right. */
  lemma BarsNonIncreasing(b1: int, b2: int, index: int, progress: int)
    requires b1 <= b2 && 0 <= progress <= 100
    ensures BarWidth(b1, index, progress) >= BarWidth(b2, index, progress)
  {
  }

  /** The total width of the first `count` bars. */
  function FilledBars(count: nat, index: int, progress: int): int
  {
    if count == 0 then 0 else FilledBars(count - 1, index, progress) + BarWidth(count - 1, index, progress)
  }

  /** Together the bars show the elapsed part of the whole sequence: 100 per
      finished story plus the current progress. */
  lemma {:induction false} FilledBarsTotal(count: nat, index: int, progress: int)
    requires 0 <= index < count
    ensures FilledBars(count, index, progress) == 100 * index + progress
    decreases count
  {
    if count - 1 > index {
      FilledBarsTotal(count - 1, index, progress);
    } else {
      FilledBarsBefore(index, index, progress);
    }
  }

  lemma {:induction false} FilledBarsBefore(count: nat, index: int, progress: int)
    requires count <= index
    ensures FilledBars(count, index, progress) == 100 * count
    decreases count
  {
    if count > 0 {
      FilledBarsBefore(count - 1, index, progress);
    }
  }

  function Ticks(p: Player, n: int, k: nat): Player
    decreases k
  {
    if k == 0 then p else Ticks(Tick(p, n), n, k - 1)
  }

  /** Starting a story, `k` ticks (up to 100) bring its progress to `k`. */
  lemma {:induction false} TicksFill(i: int, n: int, k: nat)
    requires k <= 100
    ensures Ticks(Playing(i, 0), n, k) == Playing(i, k)
    decreases k
  {
    if k > 0 {
      TicksFill(i, n, k - 1);
      TicksAppend(Playing(i, 0), n, k - 1);
    }
  }

  lemma {:induction false} TicksAppend(p: Player, n: int, k: nat)
    ensures Ticks(p, n, k + 1) == Tick(Ticks(p, n, k), n)
    decreases k
  {
    if k > 0 {
      TicksAppend(Tick(p, n), n, k - 1);
    }
  }

  /** Each story is shown for 101 ticks: 100 fill its bar, the next one moves on. */
  lemma StoryLasts101Ticks(i: int, n: int)
    ensures Ticks(Playing(i, 0), n, 100) == Playing(i, 100)
    ensures Ticks(Playing(i, 0), n, 101) == Next(Playing(i, 0), n)
  {
    TicksFill(i, n, 100);
    TicksAppend(Playing(i, 0), n, 100);
  }

  /** On the first story a left tap does nothing; on the last one a right tap
      or a completed bar closes the viewer instead of running past the end. */
  lemma EndsAreClamped(n: int, progress: int)
    requires n >= 1
    ensures Apply(Playing(0, progress), n, LeftTap) == Playing(0, progress)
    ensures Apply(Playing(n - 1, progress), n, RightTap) == Closed
    ensures progress >= 100 ==> Apply(Playing(n - 1, progress), n, TickEvent) == Closed
  {
  }
}

=== FILE: strings.dfy ===
/** The string primitives the event handlers rely on, as JavaScript defines them:
    `toLowerCase`, the `\s` class, `trim`, `includes` and `Number.prototype.toString`. */
module Strings {

  /** The characters JavaScript's `\s` matches; `String.prototype.trim` strips exactly these. */
  predicate IsSpace(c: char)
  {
    || c == '\t' || c == '\n' || c == '\U{000B}' || c == '\U{000C}' || c == '\r'
    || c == ' ' || c == '\U{00A0}' || c == '\U{1680}'
    || ('\U{2000}' <= c <= '\U{200A}')
    || c == '\U{2028}' || c == '\U{2029}' || c == '\U{202F}' || c == '\U{205F}'
    || c == '\U{3000}' || c == '\U{FEFF}'
  }

  /** Upper-case letters of ASCII and Latin-1 (`À`..`Þ` without `×`). */
  predicate IsUpper(c: char)
  {
    ('A' <= c <= 'Z') || ('\U{00C0}' <= c <= '\U{00DE}' && c != '\U{00D7}')
  }

  /** `toLowerCase` on one character of the modelled range; every other character is kept. */
  function ToLower(c: char): (r: char)
    ensures !IsUpper(r)
    ensures IsSpace(r) <==> IsSpace(c)
    ensures !IsUpper(c) ==> r == c
    ensures IsUpper(c) ==> r as int == c as int + 32
  {
    if IsUpper(c) then (c as int + 32) as char else c
  }

  /** `s.toLowerCase()`: same length, each character lowered. */
  function Lower(s: string): (r: string)
    ensures |r| == |s|
    ensures forall i :: 0 <= i < |s| ==> r[i] == ToLower(s[i])
  {
    seq(|s|, i requires 0 <= i < |s| => ToLower(s[i]))
  }

  /** Lowering twice is lowering once. */
  lemma LowerIdempotent(s: string)
    ensures Lower(Lower(s)) == Lower(s)
  {
  }

  /** Only the empty string lowers to the empty string. */
  lemma LowerEmptyIff(s: string)
    ensures Lower(s) == [] <==> s == []
  {
    assert |Lower(s)| == |s|;
  }

  /** The string without its leading whitespace. */
  function TrimStart(s: string): (r: string)
    ensures |r| <= |s| && r == s[|s| - |r|..]
    ensures |r| > 0 ==> !IsSpace(r[0])
    ensures forall i :: 0 <= i < |s| - |r| ==> IsSpace(s[i])
  {
    if |s| > 0 && IsSpace(s[0]) then TrimStart(s[1..]) else s
  }

  /** The string without its trailing whitespace. */
  function TrimEnd(s: string): (r: string)
    ensures |r| <= |s| && r == s[..|r|]
    ensures |r| > 0 ==> !IsSpace(r[|r| - 1])
    ensures forall i :: |r| <= i < |s| ==> IsSpace(s[i])
  {
    if |s| > 0 && IsSpace(s[|s| - 1]) then TrimEnd(s[..|s| - 1]) else s
  }

  /** `s.trim()`. */
  function Trim(s: string): string
  {
    TrimEnd(TrimStart(s))
  }

  /** `!s.trim()`: nothing but whitespace is left. */
  predicate IsBlank(s: string)
  {
    Trim(s) == []
  }

  /** A string is blank exactly when every character is whitespace. */
  lemma BlankIffAllSpace(s: string)
    ensures IsBlank(s) <==> forall i :: 0 <= i < |s| ==> IsSpace(s[i])
  {
    var t := TrimStart(s);
    if |t| > 0 {
      assert !IsSpace(s[|s| - |t|]);
      assert |TrimEnd(t)| > 0;
    }
  }

  /** `s.includes(q)`, computed the way a naive scan does. */
  predicate Includes(s: string, q: string)
    decreases |s|
  {
    |q| <= |s| && (s[..|q|] == q || Includes(s[1..], q))
  }

  /** A query whose first character is missing from the text is not included in it. */
  lemma {:induction false} MissingFirstNotIncluded(s: string, q: string)
    requires |q| > 0 && q[0] !in s
    ensures !Includes(s, q)
    decreases |s|
  {
    if |q| <= |s| {
      assert s[..|q|][0] == s[0] != q[0];
      MissingFirstNotIncluded(s[1..], q);
    }
  }

  /** An ASCII lower-case letter appears in a lowered text only where the text
      had that letter in either case. */
  lemma LowerAvoids(s: string, ch: char)
    requires 'a' <= ch <= 'z'
    requires forall i :: 0 <= i < |s| ==> s[i] != ch && s[i] != (ch as int - 32) as char
    ensures ch !in Lower(s)
  {
  }

  /** `q` occurs in `s` starting at position `i`. */
  ghost predicate OccursAt(s: string, q: string, i: int)
  {
    0 <= i && i + |q| <= |s| && s[i..i + |q|] == q
  }

  /** The scan finds `q` exactly when `q` occurs somewhere in `s`. */
  lemma {:induction false} IncludesIff(s: string, q: string)
    ensures Includes(s, q) <==> exists i :: OccursAt(s, q, i)
    decreases |s|
  {
    if |q| > |s| {
      forall i | OccursAt(s, q, i) ensures false {
      }
    } else if s[..|q|] == q {
      assert OccursAt(s, q, 0);
    } else {
      IncludesIff(s[1..], q);
      if Includes(s, q) {
        var j :| OccursAt(s[1..], q, j);
        assert s[1..][j..j + |q|] == s[j + 1..j + 1 + |q|];
        assert OccursAt(s, q, j + 1);
      } else {
        forall i | OccursAt(s, q, i) ensures false {
          if i > 0 {
            assert s[1..][i - 1..i - 1 + |q|] == s[i..i + |q|];
            assert OccursAt(s[1..], q, i - 1);
          }
        }
      }
    }
  }

  /** The empty string is included in every string, so an empty search matches everything. */
  lemma IncludesEmpty(s: string)
    ensures Includes(s, [])
  {
  }

  predicate IsDigit(c: char)
  {
    '0' <= c <= '9'
  }

  function DigitChar(d: int): (c: char)
    requires 0 <= d < 10
    ensures IsDigit(c)
  {
    ('0' as int + d) as char
  }

  function DigitValue(c: char): (d: int)
    requires IsDigit(c)
    ensures 0 <= d < 10
  {
    c as int - '0' as int
  }

  /** `n.toString()` for a non-negative integer: decimal digits, no leading zero. */
  function NatToString(n: nat): (r: string)
    ensures |r| >= 1
    ensures forall i :: 0 <= i < |r| ==> IsDigit(r[i])
    ensures n > 0 ==> r[0] != '0'
    decreases n
  {
    if n < 10 then [DigitChar(n)] else NatToString(n / 10) + [DigitChar(n % 10)]
  }

  /** The number a string of decimal digits denotes. */
  function ParseDigits(s: string): nat
    requires forall i :: 0 <= i < |s| ==> IsDigit(s[i])
  {
    if |s| == 0 then 0 else ParseDigits(s[..|s| - 1]) * 10 + DigitValue(s[|s| - 1])
  }

  /** Reading back the decimal text of `n` gives `n`. */
  lemma {:induction false} ParseNatToString(n: nat)
    ensures ParseDigits(NatToString(n)) == n
    decreases n
  {
    var r := NatToString(n);
    if n >= 10 {
      ParseNatToString(n / 10);
      assert r[..|r| - 1] == NatToString(n / 10);
    }
  }

  function Pow10(k: nat): (p: nat)
    ensures p >= 1
  {
    if k == 0 then 1 else 10 * Pow10(k - 1)
  }

  /** A number with exactly `k` decimal digits is printed with `k` characters. */
  lemma {:induction false} NatToStringLength(n: nat, k: nat)
    requires k >= 1
    requires Pow10(k - 1) <= n < Pow10(k)
    ensures |NatToString(n)| == k
    decreases k
  {
    if k == 1 {
      assert n < 10;
    } else {
      assert n >= 10 by {
        assert Pow10(k - 1) == 10 * Pow10(k - 2);
      }
      assert Pow10(k - 2) <= n / 10 < Pow10(k - 1) by {
        assert Pow10(k - 1) == 10 * Pow10(k - 2);
        assert Pow10(k) == 10 * Pow10(k - 1);
      }
      NatToStringLength(n / 10, k - 1);
    }
  }
}

=== FILE: types.dfy ===
/** The entities the storefront passes between its components (types.ts). */
module Types {

  /** A value that may be absent: JavaScript's `undefined`/`null` for a field or a reply. */
  datatype Option<+T> = None | Some(value: T)

  /** The two kinds of story card: a full-screen image, or text on a coloured background. */
  datatype StoryKind = Image | Text

  /** A catalog item. The price is kept in integer cents (189.90 is 18990);
      `likesCount` is the counter the backend stores for the product, absent on
      the bundled catalog. */
  datatype Product = Product(
    id: int,
    name: string,
    priceCents: int,
    description: string,
    imageUrl: string,
    videoUrl: Option<string>,
    category: string,
    sizes: seq<string>,
    likesCount: Option<int>)

  /** An ephemeral story; `timestamp` is in milliseconds since the epoch. */
  datatype StoryPost = StoryPost(
    id: string,
    kind: StoryKind,
    content: string,
    timestamp: int,
    backgroundColor: Option<string>,
    textColor: Option<string>)

  /** Which top-level surface the application shows. */
  datatype ViewState = Landing | Admin
}
